=== FILE: README.md ===
# Model binding values and tag-helper attribute editing, in Dafny

This project models four pieces of ASP.NET MVC (the `codingonHP/Mvc` code base):

- **`ValueProviderResult`** (`value_provider_result.dfy`): zero, one or many raw
  strings bound to a key, plus a culture. Its string conversion returns null,
  the sole value, or the values joined with commas. Its equality compares the
  value arrays ordinally and ignores the culture. The default value `None` (a
  null array) differs from a result over an empty array.
- **`ModelBindingConvert`** (`model_binding_convert.dfy`): converting a raw
  bound value to a target type. This covers the null and pass-through shortcuts
  and the four array/scalar cases, including the store into the new array
  (a null element becomes the element type's default). It also covers `Nullable<T>` unwrapping,
  blank strings becoming null, the choice between the target's converter and
  the source's converter, the enum fallback for integral values, the "no
  converter exists" error, and how converter exceptions are unwrapped.
  Reflection, `Activator.CreateInstance`, the `TypeDescriptor` converters and
  `Enum.ToObject` are fields of a `Services` record passed as a parameter.
- **`DictionaryBasedValueProvider`** (`dictionary_based_value_provider.dfy`):
  the state is a dictionary plus a prefix index that is built lazily and then
  cached. A lookup produces a single-value result in the invariant culture. A
  miss produces `None`.
- **`TagHelperOutputExtensions`** (`tag_helper_output_extensions.dfy`): edits
  to the ordered attribute list of a tag helper's output. Each operation
  returns the new list, or the error it throws. The operations are:
  - copying an attribute from the context so that it lands next to its nearest
    neighbour;
  - merging a `TagBuilder`'s attributes, where existing names are kept and
    `class` values are concatenated;
  - removing a snapshot of attributes.

Shared pieces:

- `wrappers.dfy`: `Option` and `Result`.
- `text.dfy`: ordinal case-insensitive comparison, `char.IsWhiteSpace`, and
  `string.Join`.
- `clr.dfy`: runtime types, objects, cultures and exceptions.

Null references are `None`. Exceptions are `Failure` values.

`StringComparison.OrdinalIgnoreCase` is modelled as equality after folding
ASCII upper-case letters to lower case.

The attribute-list operations these files call (`ContainsName`, `Insert`,
`Add`, the by-name indexer setter and `Remove`) belong to
`TagHelperAttributeList`, which is not part of this model. They are defined
here with these semantics:

- a name matches ignoring case;
- `Insert` and `Add` are positional;
- setting by name replaces the first attribute with that name and removes the
  later ones. The new attribute carries the indexer's name and is not
  minimized. If no attribute has the name, the new one is appended;
- `Remove` drops the first attribute equal to the argument. Equality is by
  name (ignoring case), value and minimized flag.

Results over the same values are equal whatever their cultures
(`EqualsIgnoresCulture`), and a result over any array, empty or not, in any
culture differs from `None` (`FromValuesAndCulture`). `NoneDiffersFromEmpty`
shows both on empty arrays: `None` and an empty array share length 0 and a
null string yet are unequal.

## Model

| member | source | states |
|---|---|---|
| ValueProviderResults.FromString | src/Microsoft.AspNet.Mvc.Abstractions/ModelBinding/ValueProviderResult.cs:19-23 | one value whose string conversion is that value, invariant culture |
| ValueProviderResults.FromStringAndCulture | src/Microsoft.AspNet.Mvc.Abstractions/ModelBinding/ValueProviderResult.cs:25-29 | one value whose string conversion is that value, in the given culture |
| ValueProviderResults.FromValues | src/Microsoft.AspNet.Mvc.Abstractions/ModelBinding/ValueProviderResult.cs:31-35 | holds exactly the given values, so its length is the array's length; invariant culture; never equal to `None` |
| ValueProviderResults.FromValuesAndCulture | src/Microsoft.AspNet.Mvc.Abstractions/ModelBinding/ValueProviderResult.cs:37-41 | holds exactly the given values, so its length is the array's length; the given culture; never equal to `None` |
| ValueProviderResults.Length | src/Microsoft.AspNet.Mvc.Abstractions/ModelBinding/ValueProviderResult.cs:47-53 | 0 exactly for a null or empty array, otherwise the number of values |
| ValueProviderResults.AsString | src/Microsoft.AspNet.Mvc.Abstractions/ModelBinding/ValueProviderResult.cs:98-112 | null exactly for length 0 or a single null value; the sole value for length 1; for two or more, the values joined with commas |
| Text.JoinSnoc | src/Microsoft.AspNet.Mvc.Abstractions/ModelBinding/ValueProviderResult.cs:110 | joining one more value appends the separator and that value's text (nothing for a null value) |
| Text.JoinLength | src/Microsoft.AspNet.Mvc.Abstractions/ModelBinding/ValueProviderResult.cs:110 | a join of n >= 1 values is as long as their texts together plus n-1 separators |
| ValueProviderResults.ElementsEqualFrom | src/Microsoft.AspNet.Mvc.Abstractions/ModelBinding/ValueProviderResult.cs:77-84 | the ordinal element loop answers true exactly when the remaining suffixes are equal |
| ValueProviderResults.Equals | src/Microsoft.AspNet.Mvc.Abstractions/ModelBinding/ValueProviderResult.cs:61-86 | equal exactly when both arrays are null, or both have the same elements in order; the culture plays no part |
| ValueProviderResults.OperatorEquals | src/Microsoft.AspNet.Mvc.Abstractions/ModelBinding/ValueProviderResult.cs:114-117 | `==` holds exactly when the value arrays agree |
| ValueProviderResults.OperatorNotEquals | src/Microsoft.AspNet.Mvc.Abstractions/ModelBinding/ValueProviderResult.cs:119-122 | `!=` holds exactly when the value arrays differ |
| ValueProviderResults.EqualsIsEquivalence | src/Microsoft.AspNet.Mvc.Abstractions/ModelBinding/ValueProviderResult.cs:61-86 | `Equals` is reflexive, symmetric and transitive |
| ValueProviderResults.EqualsIgnoresCulture | src/Microsoft.AspNet.Mvc.Abstractions/ModelBinding/ValueProviderResult.cs:31-41 | results over the same values are equal whatever cultures they were built with |
| ValueProviderResults.NoneDiffersFromEmpty | src/Microsoft.AspNet.Mvc.Abstractions/ModelBinding/ValueProviderResult.cs:17 | `None` and an empty array both have length 0 and a null string, yet are unequal; two empty arrays are equal across cultures |
| ValueProviderResults.EqualResultsAgreeOnStringAndHash | src/Microsoft.AspNet.Mvc.Abstractions/ModelBinding/ValueProviderResult.cs:88-112 | equal results have the same length, the same string conversion and the same hash outcome |
| ValueProviderResults.SameStringDoesNotImplyEqual | src/Microsoft.AspNet.Mvc.Abstractions/ModelBinding/ValueProviderResult.cs:98-112 | `["a,b"]` and `["a","b"]` convert to the same string but are not equal |
| ValueProviderResults.GetHashCode | src/Microsoft.AspNet.Mvc.Abstractions/ModelBinding/ValueProviderResult.cs:88-91 | as written: throws a null-reference error exactly when the string conversion is null, else hashes that string |
| ValueProviderResults.HashOfNoneFails | src/Microsoft.AspNet.Mvc.Abstractions/ModelBinding/ValueProviderResult.cs:88-91 | hashing `None`, an empty array or a single null value throws |
| ValueProviderResults.GetHashCodeTotal | src/Microsoft.AspNet.Mvc.Abstractions/ModelBinding/ValueProviderResult.cs:88-91 | corrected hash: agrees with the original wherever that succeeds, 0 where it would throw |
| ModelBindingConvert.UnwrapNullableType | src/Microsoft.AspNet.Mvc.Core/ModelBinding/ModelBindingConvert.cs:163-166 | `Nullable<T>` becomes `T`, anything else is kept; the result is never nullable |
| ModelBindingConvert.RethrowConverterFailure | src/Microsoft.AspNet.Mvc.Core/ModelBinding/ModelBindingConvert.cs:145-159 | a format error propagates unchanged; any other exception is replaced by its inner exception, or an argument-null error when there is none |
| ModelBindingConvert.ConvertSimpleType | src/Microsoft.AspNet.Mvc.Core/ModelBinding/ModelBindingConvert.cs:96-111 | null stays null; an assignable value passes through; a blank string becomes null |
| ModelBindingConvert.NoConverterFallback | src/Microsoft.AspNet.Mvc.Core/ModelBinding/ModelBindingConvert.cs:113-137 | with no converter either way, an integral value becomes an enum value of an enum target, anything else is a "no converter exists" error naming both types |
| ModelBindingConvert.ConverterFailuresAreUnwrapped | src/Microsoft.AspNet.Mvc.Core/ModelBinding/ModelBindingConvert.cs:113-160 | the target's converter is preferred when it converts from the source type, else the source's converter converts to the target; either call's failure goes through the catch block |
| ModelBindingConvert.NullableConvertsAsUnderlying | src/Microsoft.AspNet.Mvc.Core/ModelBinding/ModelBindingConvert.cs:98-104 | when the value passes through unchanged neither to `Nullable<T>` nor to `T` (the test made before unwrapping), a `Nullable<T>` target converts exactly like `T` |
| ModelBindingConvert.BlankStringIgnoresConverters | src/Microsoft.AspNet.Mvc.Core/ModelBinding/ModelBindingConvert.cs:106-111 | the outcome for a blank string does not depend on any converter, and is null unless the string passes through |
| ModelBindingConvert.StoreElement | src/Microsoft.AspNet.Mvc.Core/ModelBinding/ModelBindingConvert.cs:60-63 | storing into an array element through `IList`: a null becomes the element type's default, a value of an assignable type is kept, anything else fails with `InvalidCastException` |
| ModelBindingConvert.ConvertElement | src/Microsoft.AspNet.Mvc.Core/ModelBinding/ModelBindingConvert.cs:60-63 | one array element: a failed conversion propagates, a successful one is then stored with `StoreElement` |
| ModelBindingConvert.ConvertElements | src/Microsoft.AspNet.Mvc.Core/ModelBinding/ModelBindingConvert.cs:59-65 | succeeds exactly when every element converts and stores, giving the element-wise results; otherwise fails with the first failing element's error |
| ModelBindingConvert.ConvertElementsAppend | src/Microsoft.AspNet.Mvc.Core/ModelBinding/ModelBindingConvert.cs:59-65 | converting a concatenation of items gives the concatenation of the conversions |
| ModelBindingConvert.UnwrapPossibleArrayType | src/Microsoft.AspNet.Mvc.Core/ModelBinding/ModelBindingConvert.cs:50-94 | array to array succeeds exactly when every element converts and stores, giving an array of the element type whose i-th item is the i-th element converted and stored (a null becomes the element type's default); scalar to array succeeds exactly when the scalar converts and stores, giving a one-element array of the element type holding it; an empty array to a scalar type is null; a non-empty one converts its first element; scalar to scalar is `ConvertSimpleType` |
| ModelBindingConvert.BlankStringElementIsDefault | src/Microsoft.AspNet.Mvc.Core/ModelBinding/ModelBindingConvert.cs:60-63 | a blank string stored as an array element becomes the element type's default: the created instance for a value type (0 in an `int[]`), null only for a reference or `Nullable<T>` element type |
| ModelBindingConvert.ConvertedArrayIsWellTyped | src/Microsoft.AspNet.Mvc.Core/ModelBinding/ModelBindingConvert.cs:56-74 | a successful conversion to an array type gives an array of the element type whose every item is the element type's default or a value of a type the element type is assignable from |
| ModelBindingConvert.Convert | src/Microsoft.AspNet.Mvc.Core/ModelBinding/ModelBindingConvert.cs:33-94 | null gives the type's default; assignable values pass through; otherwise the four cases (array to array element-wise, scalar to one-element array, both through the array store, array to first element or null when empty, scalar to scalar) in the given culture or the invariant one |
| ModelBindingConvert.NullCultureMeansInvariant | src/Microsoft.AspNet.Mvc.Core/ModelBinding/ModelBindingConvert.cs:28-31 | converting without a culture is converting in the invariant culture |
| ModelBindingConvert.SingletonArrayConvertsLikeItsElement | src/Microsoft.AspNet.Mvc.Core/ModelBinding/ModelBindingConvert.cs:77-93 | a one-element array converts to a scalar type exactly as its element does |
| ModelBindingConvert.ScalarToArrayAndBack | src/Microsoft.AspNet.Mvc.Core/ModelBinding/ModelBindingConvert.cs:67-84 | for a scalar that does not pass through to the array type: once wrapping it into the array succeeds with a non-null element that passes through to the element type, converting the wrapped array back to the element type gives that element |
| ModelBindingConvert.ConvertTo | src/Microsoft.AspNet.Mvc.Core/ModelBinding/ModelBindingConvert.cs:17-26 | `Convert<T>` fails exactly when `Convert` does, with the same error; a non-null result is kept; a null result, and a null input, become `default(T)` |
| ModelBindingConvert.ConvertToBlankStringIsDefault | src/Microsoft.AspNet.Mvc.Core/ModelBinding/ModelBindingConvert.cs:22-26 | a blank string that does not pass through to a scalar type gives `default(T)`, which is null for reference and nullable types |
| DictionaryBasedValueProvider.Create | src/Microsoft.AspNet.Mvc.Core/ModelBinding/DictionaryBasedValueProvider.cs:25-31 | a new provider has no prefix index yet and is consistent |
| DictionaryBasedValueProvider.GetPrefixContainer | src/Microsoft.AspNet.Mvc.Core/ModelBinding/DictionaryBasedValueProvider.cs:33-44 | the index is built over the dictionary's keys on first use and the cached one is returned afterwards |
| DictionaryBasedValueProvider.ContainsPrefix | src/Microsoft.AspNet.Mvc.Core/ModelBinding/DictionaryBasedValueProvider.cs:47-50 | answers the prefix question over exactly the dictionary's key set and leaves the index cached |
| DictionaryBasedValueProvider.RepeatedQueriesAgree | src/Microsoft.AspNet.Mvc.Core/ModelBinding/DictionaryBasedValueProvider.cs:33-50 | a query after an earlier one answers as on a fresh provider and changes nothing more |
| DictionaryBasedValueProvider.ContainsPrefixDependsOnlyOnKeys | src/Microsoft.AspNet.Mvc.Core/ModelBinding/DictionaryBasedValueProvider.cs:39-49 | providers with the same key set answer prefix queries alike; this holds by construction, since the prefix test is a parameter over the key set |
| DictionaryBasedValueProvider.GetValue | src/Microsoft.AspNet.Mvc.Core/ModelBinding/DictionaryBasedValueProvider.cs:53-68 | a stored key gives one value in the invariant culture (the string itself, else `ToString()`, else empty), never `None`; a missing key gives `None` |
| DictionaryBasedValueProvider.StoredText | src/Microsoft.AspNet.Mvc.Core/ModelBinding/DictionaryBasedValueProvider.cs:59 | a stored string is used as it is, else the object's `ToString()`; the text is empty exactly when the value is null, "", or an object whose `ToString()` is null or "" |
| DictionaryBasedValueProvider.EmptyHitIsNotNone | src/Microsoft.AspNet.Mvc.Core/ModelBinding/DictionaryBasedValueProvider.cs:57-61 | a key stored with null or "" still yields the single value "" rather than `None` |
| Text.EqualsIgnoreCaseIsEquivalence | src/Microsoft.AspNet.Mvc.TagHelpers/TagHelperOutputExtensions.cs:41-44 | case-insensitive name comparison is an equivalence |
| TagHelperOutputExtensions.InsertAt | src/Microsoft.AspNet.Mvc.TagHelpers/TagHelperOutputExtensions.cs:167 | the attribute lands at the index, the attributes before it stay in place and those from the index on move up by one; the contents gain exactly that attribute |
| TagHelperOutputExtensions.IndexOfName | src/Microsoft.AspNet.Mvc.TagHelpers/TagHelperOutputExtensions.cs:163-170 | finds an index exactly when the list contains the name, and it is the first attribute with that name |
| TagHelperOutputExtensions.TryFindNameAndInsertAttribute | src/Microsoft.AspNet.Mvc.TagHelpers/TagHelperOutputExtensions.cs:157-173 | reports true exactly when the name is present; then inserts before (offset 0) or after (offset 1) its first attribute, otherwise leaves the list alone |
| TagHelperOutputExtensions.InsertAfterPreceding | src/Microsoft.AspNet.Mvc.TagHelpers/TagHelperOutputExtensions.cs:123-136 | inserts after the output attribute named like the nearest preceding context attribute the output holds; fails exactly when it holds none |
| TagHelperOutputExtensions.InsertBeforeFollowing | src/Microsoft.AspNet.Mvc.TagHelpers/TagHelperOutputExtensions.cs:138-151 | inserts before the output attribute named like the nearest following context attribute the output holds; fails exactly when it holds none |
| TagHelperOutputExtensions.CopyHtmlAttributeMaintainOrder | src/Microsoft.AspNet.Mvc.TagHelpers/TagHelperOutputExtensions.cs:110-155 | adds exactly the context attribute: after its nearest known predecessor, else before its nearest known successor, else at the end |
| TagHelperOutputExtensions.CopyMatches | src/Microsoft.AspNet.Mvc.TagHelpers/TagHelperOutputExtensions.cs:36-49 | the loop adds exactly the scanned context attributes with the name, and raises its flag exactly when it meets one |
| TagHelperOutputExtensions.CopyHtmlAttribute | src/Microsoft.AspNet.Mvc.TagHelpers/TagHelperOutputExtensions.cs:29-58 | an output that already holds the name is unchanged; otherwise every context attribute with the name is added; throws exactly when neither list holds the name |
| TagHelperOutputExtensions.CopyMatchesNoMatch | src/Microsoft.AspNet.Mvc.TagHelpers/TagHelperOutputExtensions.cs:37-49 | the loop over context attributes none of which has the name leaves the output and the flag unchanged |
| TagHelperOutputExtensions.CopyMatchesSingle | src/Microsoft.AspNet.Mvc.TagHelpers/TagHelperOutputExtensions.cs:37-49 | the loop over context attributes of which only `ctx[j]` has the name gives the output with that one copy placed by `CopyHtmlAttributeMaintainOrder`, and raises the flag |
| TagHelperOutputExtensions.CopyHtmlAttributeSingleMatch | src/Microsoft.AspNet.Mvc.TagHelpers/TagHelperOutputExtensions.cs:29-58 | when the output lacks the name and the context holds it once, the copy lands after its nearest preceding context neighbour the output holds, else before the nearest following one, else at the end |
| TagHelperOutputExtensions.CopyHtmlAttributeIsIdempotent | src/Microsoft.AspNet.Mvc.TagHelpers/TagHelperOutputExtensions.cs:34 | copying the same attribute again changes nothing |
| TagHelperOutputExtensions.ReplaceFirstRemoveRest | src/Microsoft.AspNet.Mvc.TagHelpers/TagHelperOutputExtensions.cs:84 | the by-name setter leaves every attribute with another name in place and in order |
| TagHelperOutputExtensions.ReplaceFirstPosition | src/Microsoft.AspNet.Mvc.TagHelpers/TagHelperOutputExtensions.cs:84 | the new attribute takes the place of the first one with the name; everything before it is untouched |
| TagHelperOutputExtensions.SetByName | src/Microsoft.AspNet.Mvc.TagHelpers/TagHelperOutputExtensions.cs:84 | with the name present, the list is the part before its first attribute, the new attribute, then the rest without that name; without it, the new attribute is appended; other names are unaffected |
| TagHelperOutputExtensions.MergeAttribute | src/Microsoft.AspNet.Mvc.TagHelpers/TagHelperOutputExtensions.cs:72-90 | a new name is appended; a known name other than `class` changes nothing; for a known `class`, the first `class` attribute gets the value appended after a space in place and later `class` attributes are dropped; the key is always present afterwards; the only new non-`class` attribute that can appear is (key, value), not minimized |
| TagHelperOutputExtensions.MergeAttributeKeepsNames | src/Microsoft.AspNet.Mvc.TagHelpers/TagHelperOutputExtensions.cs:72-90 | a merge step never loses a name the output holds |
| TagHelperOutputExtensions.MergeAttributeKeepsAllNames | src/Microsoft.AspNet.Mvc.TagHelpers/TagHelperOutputExtensions.cs:72-90 | the same, for every name at once |
| TagHelperOutputExtensions.MergeAttributes | src/Microsoft.AspNet.Mvc.TagHelpers/TagHelperOutputExtensions.cs:68-92 | after merging, every builder name is present, every name the output held is still present, every non-`class` attribute of the output survives, and every non-`class` attribute of the result is one of the output's or a builder entry as a non-minimized attribute |
| TagHelperOutputExtensions.MergeAttributesSnoc | src/Microsoft.AspNet.Mvc.TagHelpers/TagHelperOutputExtensions.cs:68-92 | merging a builder with one more entry is merging the rest and then that entry, so the whole merge is `MergeAttribute` applied entry by entry in builder order, for any mix of new, known and `class` names |
| TagHelperOutputExtensions.MergeNewNamesAppends | src/Microsoft.AspNet.Mvc.TagHelpers/TagHelperOutputExtensions.cs:72-77 | builder attributes with distinct, new names are appended in builder order, not minimized |
| TagHelperOutputExtensions.MergeKnownNamesIsIdentity | src/Microsoft.AspNet.Mvc.TagHelpers/TagHelperOutputExtensions.cs:72-78 | builder attributes whose names are already present, `class` excepted, change nothing |
| TagHelperOutputExtensions.Remove | src/Microsoft.AspNet.Mvc.TagHelpers/TagHelperOutputExtensions.cs:106 | with an equal attribute present the list loses exactly one element; without one it is unchanged |
| TagHelperOutputExtensions.RemoveDropsFirstEqual | src/Microsoft.AspNet.Mvc.TagHelpers/TagHelperOutputExtensions.cs:106 | the element removed is the first one equal to the argument; the others keep their order |
| TagHelperOutputExtensions.RemoveKeepsOthers | src/Microsoft.AspNet.Mvc.TagHelpers/TagHelperOutputExtensions.cs:106 | the result is a subsequence of the list; attributes not equal to the argument keep their counts |
| TagHelperOutputExtensions.RemoveCount | src/Microsoft.AspNet.Mvc.TagHelpers/TagHelperOutputExtensions.cs:106 | the count of attributes equal to any `x` drops by one when the argument equals `x`, floored at zero |
| TagHelperOutputExtensions.RemoveRange | src/Microsoft.AspNet.Mvc.TagHelpers/TagHelperOutputExtensions.cs:100-108 | the result is a subsequence of the list, at most one attribute shorter per listed entry; attributes equal to no listed one keep their counts |
| TagHelperOutputExtensions.RemoveRangeCount | src/Microsoft.AspNet.Mvc.TagHelpers/TagHelperOutputExtensions.cs:100-108 | the count of attributes equal to any `x` drops by the number of listed entries equal to `x`, floored at zero |
| TagHelperOutputExtensions.RemoveRangeOfItselfEmpties | src/Microsoft.AspNet.Mvc.TagHelpers/TagHelperOutputExtensions.cs:104 | removing a snapshot of the output's own attributes empties it |
| TagHelperOutputExtensions.RemoveRangeOfStrangersIsIdentity | src/Microsoft.AspNet.Mvc.TagHelpers/TagHelperOutputExtensions.cs:100-108 | removing attributes equal to none in the output leaves it unchanged |

## Left out

- Asynchrony: `ContainsPrefixAsync` and `GetValueAsync` return completed tasks. They are modelled as plain values.
- `[NotNull]` arguments: the model's types admit no null where the source rejects one with `ArgumentNullException`.
- `ValueProviderResult.Equals(object)` (ValueProviderResult.cs:55-59) unboxes and delegates to the typed `Equals`. Boxing is not modelled.
- `ToString` (ValueProviderResult.cs:93-96) returns the string conversion. It is the same function as `AsString`.
- `Text.EqualsIgnoreCase`: only ASCII letters are folded. Ordinal case-insensitive comparison of other characters is not modelled.
- `ValueProviderResults.GetHashCode`: `string.GetHashCode` is a parameter (`stringHash`), so only where the hash comes from is stated.
- `ModelBindingConvert.ConvertTo`: the final cast `(T)converted` and its `InvalidCastException` are not modelled. A non-null value is returned as it is.
- `ModelBindingConvert.StoreElement`: the array store's widening of primitive values (an `int` into a `long[]`) is not modelled. A non-null value is stored only when the element type is assignable from its type; anything else fails with `InvalidCastException`.
- `ModelBindingConvert.ConvertSimpleType`: the converter branches are stated by `NoConverterFallback` and `ConverterFailuresAreUnwrapped`, not in its own contract.
- Reflection, `Activator.CreateInstance`, `TypeDescriptor.GetConverter`, the converters and `Enum.ToObject` are parameters (`Services`). Their own behaviour is not modelled.
- `DictionaryBasedValueProvider.ContainsPrefix`: `PrefixContainer` is not part of this model. Its prefix test is a parameter over the key set.
- The dictionary is treated as immutable. A dictionary changed after the index was built would leave a stale index; that is not modelled. Its key comparer is taken as ordinal.
- `DictionaryBasedValueProvider.GetValue`: `ToString()` of a stored object is a parameter.
- `TagHelperAttributeList`, `TagHelperOutput`, `TagHelperContext` and `TagBuilder` are not part of this model. Their operations are the definitions described above. The builder's attributes are a sequence in enumeration order.
- Attribute values are strings. The real values are objects, and `class` concatenation goes through their string conversion.
- `TagHelperOutputExtensions.CopyHtmlAttribute`: its contract states which attributes are added, not their positions. Positions are stated only when the context holds the name once (`CopyHtmlAttributeSingleMatch`). With several matches, each copy is placed by `CopyHtmlAttributeMaintainOrder` against the output as it stands after the later matches were copied; no lemma states the combined positions.
- `TagHelperOutputExtensions.TryFindNameAndInsertAttribute`: requires an offset of 0 or 1, the only values it is called with. Other offsets could throw `ArgumentOutOfRangeException` from `Insert`.
- `MergeAttributes`: its contract states which names and attributes survive and which can appear. Positions and `class` concatenation are stated per entry, by `MergeAttribute` together with `MergeAttributesSnoc`. Whole-builder positions are stated only for builders whose names are all new and distinct (`MergeNewNamesAppends`) or all known and not `class` (`MergeKnownNamesIsIdentity`).
- `Remove` and `RemoveRange`: which element is removed and how the counts change are stated by the lemmas `RemoveDropsFirstEqual`, `RemoveKeepsOthers`, `RemoveCount` and `RemoveRangeCount`, not in the functions' own contracts.
- The `Add("class", …)` branch of `MergeAttributes` (TagHelperOutputExtensions.cs:86-89) is modelled but cannot be reached. A name equal to `class` ignoring case that the output holds is always found by the lookup.
- ModelState.cs, ChunkTreeResult.cs, the model-binding engine and the test files are not part of this model.

## Findings

| source | as written | input that shows it | evidently intended | confidence | as-written member | corrected member |
|---|---|---|---|---|---|---|
| src/Microsoft.AspNet.Mvc.Abstractions/ModelBinding/ValueProviderResult.cs:88-91 | `GetHashCode` calls `GetHashCode` on `(string)this`, which is null when there are no values or a single null value | `ValueProviderResult.None.GetHashCode()` (also a result over an empty array) | a total hash that is consistent with `Equals` | not executed; medium (the null conversion is certain, whether callers hash such values is not) | ValueProviderResults.GetHashCode, ValueProviderResults.HashOfNoneFails | ValueProviderResults.GetHashCodeTotal, ValueProviderResults.EqualResultsAgreeOnStringAndHash |

=== FILE: clr.dfy ===
/** The slice of the .NET runtime the model talks about: cultures, types,
    boxed objects and exceptions. Everything here is data; the behaviour of
    reflection and of type converters is supplied from outside. */
module Clr {
  import opened Wrappers

  /** `CultureInfo`, as an opaque token; only the invariant culture is distinguished. */
  datatype Culture = InvariantCulture | Culture(name: string)

  /** A type that is neither an array nor `Nullable<T>`. */
  datatype ScalarType =
    | ReferenceType(name: string)
    | ValueType(name: string)
    | EnumType(name: string)

  /** The types `Nullable<T>` may wrap: value types and enums. */
  type NonNullableValueType = s: ScalarType | !s.ReferenceType? witness ValueType("System.Int32")

  /** A `System.Type` as the conversion code inspects it. */
  datatype TypeDesc =
    | Simple(scalar: ScalarType)
    | Nullable(underlying: NonNullableValueType)
    | ArrayOf(element: TypeDesc)

  const StringType: ScalarType := ReferenceType("System.String")

  /** Runtime types of boxed objects other than strings (strings are `Str`). */
  type BoxedType = s: ScalarType | s != StringType witness ValueType("System.Int32")

  /** A non-null object: a string, an array (elements may be null), or any other
      boxed object, known by its runtime type and an opaque payload. */
  datatype Obj =
    | Str(s: string)
    | Arr(elementType: TypeDesc, items: seq<Option<Obj>>)
    | Boxed(boxedType: BoxedType, payload: int)

  /** `value.GetType()`. */
  function RuntimeType(o: Obj): TypeDesc {
    match o
    case Str(_) => Simple(StringType)
    case Arr(e, _) => ArrayOf(e)
    case Boxed(t, _) => Simple(t)
  }

  /** `type.GetTypeInfo().IsValueType`: `Nullable<T>` is itself a value type. */
  predicate IsValueType(t: TypeDesc) {
    match t
    case Simple(s) => !s.ReferenceType?
    case Nullable(_) => true
    case ArrayOf(_) => false
  }

  /** `type.GetTypeInfo().IsEnum`. */
  predicate IsEnum(t: TypeDesc) {
    t.Simple? && t.scalar.EnumType?
  }

  const IntegralTypeNames: set<string> := {
    "System.Int32", "System.UInt32", "System.Int64", "System.UInt64",
    "System.Int16", "System.UInt16", "System.Byte", "System.SByte"
  }

  /** `value is int || value is uint || ... || value is sbyte`. */
  predicate IsIntegral(o: Obj) {
    o.Boxed? && o.boxedType.ValueType? && o.boxedType.name in IntegralTypeNames
  }

  datatype ExceptionKind =
    | FormatError                      // FormatException and its subclasses
    | NoConverterExists(source: TypeDesc, destination: TypeDesc)   // InvalidOperationException
    | ArgumentNull                     // ArgumentNullException
    | NullReference                    // NullReferenceException
    | InvalidCast                      // InvalidCastException
    | OtherFailure(name: string)       // any other exception type

  /** An exception with its optional `InnerException`. */
  datatype Exception = Exception(kind: ExceptionKind, inner: Option<Exception>)
}

=== FILE: dictionary_based_value_provider.dfy ===
/** `DictionaryBasedValueProvider`: a value provider over a dictionary from
    keys to objects. Lookups produce single-value results in the invariant
    culture; prefix queries go to a prefix index over the key set that is
    built on first use and kept afterwards. */
module DictionaryBasedValueProvider {
  import opened Wrappers
  import opened Clr
  import opened ValueProviderResults

  /** The `PrefixContainer` built over the dictionary's keys. Its internals are
      not part of this model: queries are answered by a predicate over `keys`. */
  datatype PrefixContainer = PrefixContainer(keys: set<string>)

  /** The provider's state: the wrapped dictionary (a null value is `None`) and
      the prefix index, `None` until first needed. */
  datatype Provider = Provider(values: map<string, Option<Obj>>, prefixContainer: Option<PrefixContainer>)

  /** The cached index, if any, describes exactly the dictionary's key set. */
  predicate Valid(p: Provider) {
    p.prefixContainer.Some? ==> p.prefixContainer.value.keys == p.values.Keys
  }

  /** The constructor: no index is built yet. */
  function Create(values: map<string, Option<Obj>>): (p: Provider)
    ensures p.values == values && p.prefixContainer.None?
    ensures Valid(p)
  {
    Provider(values, None)
  }

  /** The lazy `PrefixContainer` property: builds the index over the keys the
      first time and returns the cached one afterwards. */
  function GetPrefixContainer(p: Provider): (r: (PrefixContainer, Provider))
    ensures r.1.values == p.values
    ensures r.1.prefixContainer == Some(r.0)
    ensures p.prefixContainer.Some? ==> r.0 == p.prefixContainer.value && r.1 == p
    ensures Valid(p) ==> r.0.keys == p.values.Keys && Valid(r.1)
  {
    match p.prefixContainer
    case Some(container) => (container, p)
    case None =>
      var container := PrefixContainer(p.values.Keys);
      (container, p.(prefixContainer := Some(container)))
  }

  /** `ContainsPrefixAsync`: asks the prefix index; `containsPrefix` stands for
      `PrefixContainer.ContainsPrefix` over the indexed keys. */
  function ContainsPrefix(p: Provider, key: string, containsPrefix: (set<string>, string) -> bool)
    : (r: (bool, Provider))
    ensures r.1.values == p.values && r.1.prefixContainer.Some?
    ensures Valid(p) ==> Valid(r.1) && (r.0 <==> containsPrefix(p.values.Keys, key))
    ensures p.prefixContainer.Some? ==> r.1 == p
  {
    var (container, p') := GetPrefixContainer(p);
    (containsPrefix(container.keys, key), p')
  }

  /** The text stored for a key: a string as it is, another object through its
      `ToString()`, and the empty string for null (or a null `ToString()`). */
  function StoredText(v: Option<Obj>, toString: Obj -> Option<string>): (r: string)
    ensures v.Some? && v.value.Str? ==> r == v.value.s
    ensures v.Some? && !v.value.Str? && toString(v.value).Some? ==> r == toString(v.value).value
    ensures r == "" <==> v.None? || v == Some(Str("")) || (v.Some? && !v.value.Str? && toString(v.value) in {None, Some("")})
  {
    match v
    case None => ""
    case Some(Str(s)) => s
    case Some(o) => toString(o).GetOr("")
  }

  /** `GetValueAsync`: a hit is one value in the invariant culture, a miss is
      `ValueProviderResult.None`. */
  function GetValue(p: Provider, key: string, toString: Obj -> Option<string>): (r: ValueProviderResult)
    ensures key in p.values ==>
              && Length(r) == 1
              && r.culture == Some(InvariantCulture)
              && AsString(r) == Some(StoredText(p.values[key], toString))
              && !Equals(r, NoneResult)
    ensures key in p.values && p.values[key].None? ==> AsString(r) == Some("")
    ensures (key in p.values && p.values[key].Some? && p.values[key].value.Str?)
              ==> AsString(r) == Some(p.values[key].value.s)
    ensures (key in p.values && p.values[key].Some? && !p.values[key].value.Str?)
              ==> AsString(r) == Some(toString(p.values[key].value).GetOr(""))
    ensures key !in p.values ==> r == NoneResult && Length(r) == 0 && AsString(r).None?
  {
    if key in p.values then FromStringAndCulture(StoredText(p.values[key], toString), InvariantCulture)
    else NoneResult
  }

  /** Answers do not depend on whether the index was already built: a query
      after any earlier query answers as it would have on a fresh provider. */
  lemma RepeatedQueriesAgree(
    values: map<string, Option<Obj>>, k1: string, k2: string, containsPrefix: (set<string>, string) -> bool)
    ensures var p1 := ContainsPrefix(Create(values), k1, containsPrefix).1;
            && p1.prefixContainer == Some(PrefixContainer(values.Keys))
            && ContainsPrefix(p1, k2, containsPrefix).0 == ContainsPrefix(Create(values), k2, containsPrefix).0
            && ContainsPrefix(p1, k2, containsPrefix).1 == p1
  {
  }

  /** `ContainsPrefix` depends only on the key set, not on the stored values. */
  lemma ContainsPrefixDependsOnlyOnKeys(
    p: Provider, q: Provider, key: string, containsPrefix: (set<string>, string) -> bool)
    requires Valid(p) && Valid(q) && p.values.Keys == q.values.Keys
    ensures ContainsPrefix(p, key, containsPrefix).0 == ContainsPrefix(q, key, containsPrefix).0
  {
  }

  /** A key stored with a null or empty value is still a hit: its result is
      the single value "" and is not equal to `None`. */
  lemma EmptyHitIsNotNone(p: Provider, key: string, toString: Obj -> Option<string>)
    requires key in p.values && (p.values[key].None? || p.values[key] == Some(Str("")))
    ensures GetValue(p, key, toString).values == Some([Some("")])
    ensures !Equals(GetValue(p, key, toString), NoneResult)
    ensures Length(GetValue(p, key, toString)) == 1
  {
  }
}

=== FILE: model_binding_convert.dfy ===
/** `ModelBindingConvert`: converting a raw bound value to a target type.
    Reflection, `Activator.CreateInstance`, the `TypeDescriptor` converters and
    `Enum.ToObject` are supplied as a `Services` record; what is modelled is the
    decision structure around them. */
module ModelBindingConvert {
  import opened Wrappers
  import opened Text
  import opened Clr

  /** The runtime services the conversion consults. A converter is identified by
      the type it was obtained for (`TypeDescriptor.GetConverter(type)`). */
  datatype Services = Services(
    // isAssignableFrom(t, u): `t.IsAssignableFrom(u)`
    isAssignableFrom: (TypeDesc, TypeDesc) -> bool,
    // `Activator.CreateInstance(t)` for a non-nullable value type
    createInstance: TypeDesc -> Option<Obj>,
    // canConvertFrom(t, u): `GetConverter(t).CanConvertFrom(u)`
    canConvertFrom: (TypeDesc, TypeDesc) -> bool,
    // canConvertTo(t, u): `GetConverter(t).CanConvertTo(u)`
    canConvertTo: (TypeDesc, TypeDesc) -> bool,
    // convertFrom(t, c, v): `GetConverter(t).ConvertFrom(null, c, v)`
    convertFrom: (TypeDesc, Culture, Obj) -> Result<Option<Obj>, Exception>,
    // convertTo(t, c, v, u): `GetConverter(t).ConvertTo(null, c, v, u)`
    convertTo: (TypeDesc, Culture, Obj, TypeDesc) -> Result<Option<Obj>, Exception>,
    // `Enum.ToObject(t, v)`
    enumToObject: (TypeDesc, Obj) -> Obj)

  /** What a null value converts to: the default instance of a value type, else
      null. `Activator.CreateInstance` of a `Nullable<T>` gives null. It is also
      `default(T)`, and what an array store makes of a null. A definition used
      by the contracts below, which state where it applies. */
  function DefaultValue(svc: Services, t: TypeDesc): Option<Obj> {
    if t.Nullable? then None
    else if IsValueType(t) then svc.createInstance(t)
    else None
  }

  /** True when the object's runtime type is assignable from `t`, the test that
      lets a value through unconverted. */
  predicate PassesThrough(svc: Services, value: Obj, t: TypeDesc) {
    svc.isAssignableFrom(RuntimeType(value), t)
  }

  /** `UnwrapNullableType`: `Nullable<T>` becomes `T`; other types are kept. */
  function UnwrapNullableType(t: TypeDesc): (r: TypeDesc)
    ensures !r.Nullable?
    ensures t.Nullable? ==> r == Simple(t.underlying)
    ensures !t.Nullable? ==> r == t
  {
    if t.Nullable? then Simple(t.underlying) else t
  }

  /** The `catch` block around a converter call: a `FormatException` propagates
      as it is; any other exception is replaced by its inner exception, and
      rethrowing a null inner exception raises `ArgumentNullException`. */
  function RethrowConverterFailure(e: Exception): (r: Exception)
    ensures e.kind.FormatError? ==> r == e
    ensures !e.kind.FormatError? && e.inner.Some? ==> r == e.inner.value
    ensures !e.kind.FormatError? && e.inner.None? ==> r.kind == ArgumentNull
  {
    if e.kind.FormatError? then e
    else match e.inner
      case Some(cause) => cause
      case None => Exception(ArgumentNull, None)
  }

  /** The result of a converter call, with its failure passed through the
      `catch` block. A definition used by the contracts of `ConvertSimpleType`'s
      lemmas; the block itself is `RethrowConverterFailure`. */
  function CallConverter(r: Result<Option<Obj>, Exception>): Result<Option<Obj>, Exception> {
    match r
    case Success(v) => Success(v)
    case Failure(e) => Failure(RethrowConverterFailure(e))
  }

  /** `ConvertSimpleType`. */
  function ConvertSimpleType(svc: Services, value: Option<Obj>, destinationType: TypeDesc, culture: Culture)
    : (r: Result<Option<Obj>, Exception>)
    ensures value.None? ==> r == Success(None)
    ensures value.Some? && PassesThrough(svc, value.value, destinationType) ==> r == Success(value)
    ensures (value.Some? && !PassesThrough(svc, value.value, destinationType)
             && value.value.Str? && IsBlank(value.value.s)) ==> r == Success(None)
  {
    if value.None? || PassesThrough(svc, value.value, destinationType) then Success(value)
    else
      var v := value.value;
      var t := UnwrapNullableType(destinationType);
      if v.Str? && IsBlank(v.s) then Success(None)
      else
        var src := RuntimeType(v);
        var canConvertFrom := svc.canConvertFrom(t, src);
        if !(canConvertFrom || svc.canConvertTo(src, t)) then
          if IsEnum(t) && IsIntegral(v) then Success(Some(svc.enumToObject(t, v)))
          else Failure(Exception(NoConverterExists(src, t), None))
        else if canConvertFrom then CallConverter(svc.convertFrom(t, culture, v))
        else CallConverter(svc.convertTo(src, culture, v, t))
  }

  /** Storing a value into an element of an array of `elementType` through
      `IList`: a null becomes the element type's default (so 0 in an `int[]`),
      a value of an assignable type is kept, anything else throws
      `InvalidCastException`. */
  function StoreElement(svc: Services, elementType: TypeDesc, v: Option<Obj>): (r: Result<Option<Obj>, Exception>)
    ensures r.Success? <==> v.None? || svc.isAssignableFrom(elementType, RuntimeType(v.value))
    ensures r.Failure? ==> r.error == Exception(InvalidCast, None)
    ensures r.Success? && v.Some? ==> r.value == v
    ensures v.None? ==> r.value == DefaultValue(svc, elementType)
  {
    match v
    case None => Success(DefaultValue(svc, elementType))
    case Some(o) =>
      if svc.isAssignableFrom(elementType, RuntimeType(o)) then Success(v)
      else Failure(Exception(InvalidCast, None))
  }

  /** One element of an array target: converted by `ConvertSimpleType`, then
      stored into the new array. */
  function ConvertElement(svc: Services, item: Option<Obj>, elementType: TypeDesc, culture: Culture)
    : (r: Result<Option<Obj>, Exception>)
    ensures ConvertSimpleType(svc, item, elementType, culture).Failure? ==> r == ConvertSimpleType(svc, item, elementType, culture)
    ensures ConvertSimpleType(svc, item, elementType, culture).Success? ==>
              r == StoreElement(svc, elementType, ConvertSimpleType(svc, item, elementType, culture).value)
  {
    match ConvertSimpleType(svc, item, elementType, culture)
    case Failure(e) => Failure(e)
    case Success(v) => StoreElement(svc, elementType, v)
  }

  /** Case 1's loop: each element converted and stored in turn; the first failure aborts. */
  function ConvertElements(svc: Services, items: seq<Option<Obj>>, elementType: TypeDesc, culture: Culture)
    : (r: Result<seq<Option<Obj>>, Exception>)
    decreases |items|
    ensures r.Success? <==> forall i :: 0 <= i < |items| ==> ConvertElement(svc, items[i], elementType, culture).Success?
    ensures r.Success? ==> |r.value| == |items|
    ensures r.Success? ==> forall i :: 0 <= i < |items| ==>
              r.value[i] == ConvertElement(svc, items[i], elementType, culture).value
    ensures forall k :: 0 <= k < |items| && ConvertElement(svc, items[k], elementType, culture).Failure?
              && (forall i :: 0 <= i < k ==> ConvertElement(svc, items[i], elementType, culture).Success?)
              ==> r == Failure(ConvertElement(svc, items[k], elementType, culture).error)
  {
    if |items| == 0 then Success([])
    else
      match ConvertElement(svc, items[0], elementType, culture)
      case Failure(e) => Failure(e)
      case Success(first) =>
        match ConvertElements(svc, items[1..], elementType, culture)
        case Failure(e) =>
          assert forall i :: 1 <= i < |items| ==> items[i] == items[1..][i - 1];
          Failure(e)
        case Success(rest) =>
          assert forall i :: 1 <= i < |items| ==> items[i] == items[1..][i - 1];
          Success([first] + rest)
  }

  /** `UnwrapPossibleArrayType`: the four array/scalar cases. */
  function UnwrapPossibleArrayType(svc: Services, value: Obj, destinationType: TypeDesc, culture: Culture)
    : (r: Result<Option<Obj>, Exception>)
    ensures destinationType.ArrayOf? && value.Arr? ==>
              && (r.Success? <==> forall i :: 0 <= i < |value.items| ==>
                    ConvertElement(svc, value.items[i], destinationType.element, culture).Success?)
              && (r.Success? ==>
                    && r.value.Some? && r.value.value.Arr?
                    && r.value.value.elementType == destinationType.element
                    && |r.value.value.items| == |value.items|
                    && forall i :: 0 <= i < |value.items| ==>
                         r.value.value.items[i] == ConvertElement(svc, value.items[i], destinationType.element, culture).value)
    ensures destinationType.ArrayOf? && !value.Arr? ==>
              && (r.Success? <==> ConvertElement(svc, Some(value), destinationType.element, culture).Success?)
              && (r.Success? ==>
                    r.value == Some(Arr(destinationType.element,
                                        [ConvertElement(svc, Some(value), destinationType.element, culture).value])))
    ensures !destinationType.ArrayOf? && value.Arr? && |value.items| == 0 ==> r == Success(None)
    ensures !destinationType.ArrayOf? && value.Arr? && |value.items| > 0 ==>
              r == ConvertSimpleType(svc, value.items[0], destinationType, culture)
    ensures !destinationType.ArrayOf? && !value.Arr? ==> r == ConvertSimpleType(svc, Some(value), destinationType, culture)
  {
    if destinationType.ArrayOf? then
      var elementType := destinationType.element;
      if value.Arr? then
        // case 1: array to array, element by element
        match ConvertElements(svc, value.items, elementType, culture)
        case Failure(e) => Failure(e)
        case Success(converted) => Success(Some(Arr(elementType, converted)))
      else
        // case 2: scalar to array, wrapped in a one-element array
        match ConvertElement(svc, Some(value), elementType, culture)
        case Failure(e) => Failure(e)
        case Success(element) => Success(Some(Arr(elementType, [element])))
    else if value.Arr? then
      // case 3: array to scalar, first element only; an empty array gives null
      if |value.items| > 0 then ConvertSimpleType(svc, value.items[0], destinationType, culture)
      else Success(None)
    else
      // case 4: scalar to scalar
      ConvertSimpleType(svc, Some(value), destinationType, culture)
  }

  /** `Convert(object value, Type type, CultureInfo culture)`; the overload
      without a culture is `Convert(svc, value, type, None)`. */
  function Convert(svc: Services, value: Option<Obj>, t: TypeDesc, culture: Option<Culture>)
    : (r: Result<Option<Obj>, Exception>)
    ensures value.None? ==> r == Success(DefaultValue(svc, t))
    ensures value.Some? && PassesThrough(svc, value.value, t) ==> r == Success(value)
    ensures value.Some? && !PassesThrough(svc, value.value, t) ==>
              var c := culture.GetOr(InvariantCulture);
              var v := value.value;
              && (t.ArrayOf? && v.Arr? ==>
                    && (r.Success? <==> forall i :: 0 <= i < |v.items| ==>
                          ConvertElement(svc, v.items[i], t.element, c).Success?)
                    && (r.Success? ==>
                          && r.value.Some? && r.value.value.Arr?
                          && r.value.value.elementType == t.element
                          && |r.value.value.items| == |v.items|
                          && forall i :: 0 <= i < |v.items| ==>
                               r.value.value.items[i] == ConvertElement(svc, v.items[i], t.element, c).value))
              && (t.ArrayOf? && !v.Arr? ==>
                    && (r.Success? <==> ConvertElement(svc, value, t.element, c).Success?)
                    && (r.Success? ==> r.value == Some(Arr(t.element, [ConvertElement(svc, value, t.element, c).value]))))
              && (!t.ArrayOf? && v.Arr? && |v.items| == 0 ==> r == Success(None))
              && (!t.ArrayOf? && v.Arr? && |v.items| > 0 ==> r == ConvertSimpleType(svc, v.items[0], t, c))
              && (!t.ArrayOf? && !v.Arr? ==> r == ConvertSimpleType(svc, value, t, c))
  {
    if value.None? then
      // value types treat null as their default value
      Success(DefaultValue(svc, t))
    else if PassesThrough(svc, value.value, t) then Success(value)
    else UnwrapPossibleArrayType(svc, value.value, t, culture.GetOr(InvariantCulture))
  }

  /** `Convert<T>(object value, CultureInfo culture)`: a null conversion result
      becomes `default(T)`. */
  function ConvertTo(svc: Services, value: Option<Obj>, t: TypeDesc, culture: Option<Culture>)
    : (r: Result<Option<Obj>, Exception>)
    ensures r.Success? <==> Convert(svc, value, t, culture).Success?
    ensures r.Failure? ==> r == Convert(svc, value, t, culture)
    ensures r.Success? && Convert(svc, value, t, culture).value.Some? ==> r == Convert(svc, value, t, culture)
    ensures r.Success? && r.value.None? ==> DefaultValue(svc, t).None?
    ensures Convert(svc, value, t, culture) == Success(None) ==> r == Success(DefaultValue(svc, t))
    ensures value.None? ==> r == Success(DefaultValue(svc, t))
  {
    match Convert(svc, value, t, culture)
    case Failure(e) => Failure(e)
    case Success(None) => Success(DefaultValue(svc, t))
    case Success(Some(o)) => Success(Some(o))
  }

  /** A missing culture means the invariant culture. */
  lemma NullCultureMeansInvariant(svc: Services, value: Option<Obj>, t: TypeDesc)
    ensures Convert(svc, value, t, None) == Convert(svc, value, t, Some(InvariantCulture))
  {
  }

  /** A one-element array converts to a non-array type exactly as its sole
      element would on its own. */
  lemma SingletonArrayConvertsLikeItsElement(svc: Services, elementType: TypeDesc, x: Obj, t: TypeDesc, c: Option<Culture>)
    requires !t.ArrayOf? && !x.Arr?
    requires !PassesThrough(svc, Arr(elementType, [Some(x)]), t)
    ensures Convert(svc, Some(Arr(elementType, [Some(x)])), t, c) == Convert(svc, Some(x), t, c)
  {
  }

  /** Converting a scalar to an array type and then that one-element array back
      to the element type gives the element's own conversion, when the
      converted element passes through unchanged. */
  lemma ScalarToArrayAndBack(svc: Services, x: Obj, elementType: TypeDesc, c: Culture)
    requires !elementType.ArrayOf? && !x.Arr?
    requires !PassesThrough(svc, x, ArrayOf(elementType))
    requires Convert(svc, Some(x), ArrayOf(elementType), Some(c)).Success?
    ensures var wrapped := Convert(svc, Some(x), ArrayOf(elementType), Some(c)).value.value;
            var back := ConvertElement(svc, Some(x), elementType, c).value;
            back.Some? && PassesThrough(svc, back.value, elementType) && !PassesThrough(svc, wrapped, elementType)
            ==> Convert(svc, Some(wrapped), elementType, Some(c)) == Success(back)
  {
  }

  /** A `Nullable<T>` target converts like `T` once neither passes a value
      through unchanged. */
  lemma NullableConvertsAsUnderlying(svc: Services, v: Obj, u: NonNullableValueType, c: Culture)
    requires !PassesThrough(svc, v, Nullable(u)) && !PassesThrough(svc, v, Simple(u))
    ensures ConvertSimpleType(svc, Some(v), Nullable(u), c) == ConvertSimpleType(svc, Some(v), Simple(u), c)
  {
  }

  /** A blank string becomes null before any converter is consulted: the
      result does not depend on the converters at all. */
  lemma BlankStringIgnoresConverters(svc1: Services, svc2: Services, s: string, t: TypeDesc, c: Culture)
    requires IsBlank(s)
    requires svc1.isAssignableFrom == svc2.isAssignableFrom
    ensures ConvertSimpleType(svc1, Some(Str(s)), t, c) == ConvertSimpleType(svc2, Some(Str(s)), t, c)
    ensures !PassesThrough(svc1, Str(s), t) ==> ConvertSimpleType(svc1, Some(Str(s)), t, c) == Success(None)
  {
  }

  /** With no converter in either direction, an integral value becomes an
      enum value and anything else is a "no converter exists" error. */
  lemma NoConverterFallback(svc: Services, v: Obj, t: TypeDesc, c: Culture)
    requires !PassesThrough(svc, v, t) && !(v.Str? && IsBlank(v.s))
    requires var u := UnwrapNullableType(t);
             !svc.canConvertFrom(u, RuntimeType(v)) && !svc.canConvertTo(RuntimeType(v), u)
    ensures var u := UnwrapNullableType(t);
            IsEnum(u) && IsIntegral(v) ==> ConvertSimpleType(svc, Some(v), t, c) == Success(Some(svc.enumToObject(u, v)))
    ensures var u := UnwrapNullableType(t);
            !(IsEnum(u) && IsIntegral(v)) ==>
              ConvertSimpleType(svc, Some(v), t, c) == Failure(Exception(NoConverterExists(RuntimeType(v), u), None))
  {
  }

  /** When a converter is found, its failures reach the caller through the
      `catch` block: a format error as it is, anything else as its inner cause. */
  lemma ConverterFailuresAreUnwrapped(svc: Services, v: Obj, t: TypeDesc, c: Culture)
    requires !PassesThrough(svc, v, t) && !(v.Str? && IsBlank(v.s))
    ensures var u := UnwrapNullableType(t);
            var src := RuntimeType(v);
            && (svc.canConvertFrom(u, src) ==>
                  ConvertSimpleType(svc, Some(v), t, c) == CallConverter(svc.convertFrom(u, c, v)))
            && (!svc.canConvertFrom(u, src) && svc.canConvertTo(src, u) ==>
                  ConvertSimpleType(svc, Some(v), t, c) == CallConverter(svc.convertTo(src, c, v, u)))
  {
  }

  /** `Convert<T>` of a blank string to a scalar type it does not pass
      through gives `default(T)`: the instance a value type creates, null for
      a reference type or `Nullable<T>`. */
  lemma ConvertToBlankStringIsDefault(svc: Services, s: string, t: TypeDesc, c: Option<Culture>)
    requires IsBlank(s) && !t.ArrayOf? && !PassesThrough(svc, Str(s), t)
    ensures ConvertTo(svc, Some(Str(s)), t, c) == Success(DefaultValue(svc, t))
    ensures t.Nullable? || !IsValueType(t) ==> ConvertTo(svc, Some(Str(s)), t, c) == Success(None)
  {
  }

  /** A blank string stored into an array element becomes the element type's
      default rather than null: 0 for an `int[]`, null only for a reference or
      `Nullable<T>` element type. */
  lemma BlankStringElementIsDefault(svc: Services, s: string, elementType: TypeDesc, c: Culture)
    requires IsBlank(s) && !PassesThrough(svc, Str(s), elementType)
    ensures ConvertElement(svc, Some(Str(s)), elementType, c) == Success(DefaultValue(svc, elementType))
    ensures elementType.Nullable? || !IsValueType(elementType) ==> ConvertElement(svc, Some(Str(s)), elementType, c) == Success(None)
    ensures IsValueType(elementType) && !elementType.Nullable? ==>
              ConvertElement(svc, Some(Str(s)), elementType, c) == Success(svc.createInstance(elementType))
  {
  }

  /** Every item of an array built by a conversion is the element type's
      default (what a null is stored as) or a value of a type the element type
      is assignable from: the store lets nothing else in. */
  lemma ConvertedArrayIsWellTyped(svc: Services, value: Obj, t: TypeDesc, c: Culture)
    requires t.ArrayOf?
    requires UnwrapPossibleArrayType(svc, value, t, c).Success?
    ensures var r := UnwrapPossibleArrayType(svc, value, t, c).value;
            && r.Some? && r.value.Arr? && r.value.elementType == t.element
            && forall i :: 0 <= i < |r.value.items| ==>
                 || r.value.items[i] == DefaultValue(svc, t.element)
                 || (r.value.items[i].Some? && svc.isAssignableFrom(t.element, RuntimeType(r.value.items[i].value)))
  {
    var r := UnwrapPossibleArrayType(svc, value, t, c).value;
    forall i | 0 <= i < |r.value.items|
      ensures || r.value.items[i] == DefaultValue(svc, t.element)
              || (r.value.items[i].Some? && svc.isAssignableFrom(t.element, RuntimeType(r.value.items[i].value)))
    {
      var item := if value.Arr? then value.items[i] else Some(value);
      assert r.value.items[i] == ConvertElement(svc, item, t.element, c).value;
    }
  }

  /** Array conversion distributes over concatenation of the source items. */
  lemma ConvertElementsAppend(svc: Services, xs: seq<Option<Obj>>, ys: seq<Option<Obj>>, et: TypeDesc, c: Culture)
    requires ConvertElements(svc, xs, et, c).Success? && ConvertElements(svc, ys, et, c).Success?
    ensures ConvertElements(svc, xs + ys, et, c)
            == Success(ConvertElements(svc, xs, et, c).value + ConvertElements(svc, ys, et, c).value)
  {
    var zs := xs + ys;
    var a := ConvertElements(svc, xs, et, c).value;
    var b := ConvertElements(svc, ys, et, c).value;
    forall i | 0 <= i < |zs|
      ensures ConvertElement(svc, zs[i], et, c).Success?
      ensures ConvertElement(svc, zs[i], et, c).value == (a + b)[i]
    {
      if i < |xs| {
        assert zs[i] == xs[i];
      } else {
        assert zs[i] == ys[i - |xs|];
      }
    }
    var r := ConvertElements(svc, zs, et, c);
    assert r.Success?;
    assert r.value == a + b;
  }
}

=== FILE: tag_helper_output_extensions.dfy ===
/** `TagHelperOutputExtensions`: editing a tag helper's ordered attribute list,
    where attribute names compare case-insensitively. The list is a sequence;
    each operation returns the new list (or the exception it throws). */
module TagHelperOutputExtensions {
  import opened Wrappers
  import opened Text

  /** `TagHelperAttribute`: name, value and whether it was written minimized. */
  datatype Attr = Attr(name: string, value: string, minimized: bool)

  /** The `ArgumentException` `CopyHtmlAttribute` throws for an unknown name. */
  datatype Error = AttributeDoesNotExist(attributeName: string)

  /** `string.Equals(name, a.Name, StringComparison.OrdinalIgnoreCase)`. */
  predicate NameIs(a: Attr, name: string) {
    EqualsIgnoreCase(name, a.name)
  }

  /** `TagHelperAttributeList.ContainsName`. */
  predicate ContainsName(attrs: seq<Attr>, name: string) {
    exists i :: 0 <= i < |attrs| && NameIs(attrs[i], name)
  }

  /** `TagHelperAttributeList.Insert(k, a)`. */
  function InsertAt(attrs: seq<Attr>, k: nat, a: Attr): (r: seq<Attr>)
    requires k <= |attrs|
    ensures |r| == |attrs| + 1 && r[k] == a
    ensures r[..k] == attrs[..k] && r[k + 1..] == attrs[k..]
    ensures multiset(r) == multiset(attrs) + multiset{a}
  {
    assert attrs == attrs[..k] + attrs[k..];
    attrs[..k] + [a] + attrs[k..]
  }

  /** A member of the list makes the list contain its name. */
  lemma MemberNameIsContained(attrs: seq<Attr>, x: Attr, name: string)
    requires x in attrs && NameIs(x, name)
    ensures ContainsName(attrs, name)
  {
    var i :| 0 <= i < |attrs| && attrs[i] == x;
    assert NameIs(attrs[i], name);
  }

  /** Names that are equal ignoring case are contained alike. */
  lemma ContainsNameIgnoresCase(attrs: seq<Attr>, n1: string, n2: string)
    requires EqualsIgnoreCase(n1, n2)
    ensures ContainsName(attrs, n1) <==> ContainsName(attrs, n2)
  {
    if ContainsName(attrs, n1) {
      var i :| 0 <= i < |attrs| && NameIs(attrs[i], n1);
      assert NameIs(attrs[i], n2);
    }
    if ContainsName(attrs, n2) {
      var i :| 0 <= i < |attrs| && NameIs(attrs[i], n2);
      assert NameIs(attrs[i], n1);
    }
  }

  /** The search loop of `TryFindNameAndInsertAttribute`, from index `j` on. */
  function IndexOfNameFrom(attrs: seq<Attr>, name: string, j: nat): (r: Option<nat>)
    requires j <= |attrs|
    decreases |attrs| - j
    ensures r.Some? ==> j <= r.value < |attrs| && NameIs(attrs[r.value], name)
    ensures r.Some? ==> forall i :: j <= i < r.value ==> !NameIs(attrs[i], name)
    ensures r.None? ==> forall i :: j <= i < |attrs| ==> !NameIs(attrs[i], name)
  {
    if j == |attrs| then None
    else if NameIs(attrs[j], name) then Some(j)
    else IndexOfNameFrom(attrs, name, j + 1)
  }

  /** The index of the first attribute with the given name, if any. */
  function IndexOfName(attrs: seq<Attr>, name: string): (r: Option<nat>)
    ensures r.Some? <==> ContainsName(attrs, name)
    ensures r.Some? ==> r.value < |attrs| && NameIs(attrs[r.value], name)
    ensures r.Some? ==> forall i :: 0 <= i < r.value ==> !NameIs(attrs[i], name)
  {
    IndexOfNameFrom(attrs, name, 0)
  }

  /** `TryFindNameAndInsertAttribute`: inserts `a` at the first attribute named
      `name` (offset 0: before it, offset 1: after it) and reports whether one
      was found. */
  function TryFindNameAndInsertAttribute(name: string, insertOffset: nat, a: Attr, attrs: seq<Attr>)
    : (r: (bool, seq<Attr>))
    requires insertOffset <= 1
    ensures r.0 <==> ContainsName(attrs, name)
    ensures !r.0 ==> r.1 == attrs
    ensures r.0 ==> var k := IndexOfName(attrs, name).value;
                    && r.1 == InsertAt(attrs, k + insertOffset, a)
                    && r.1[..k + insertOffset] == attrs[..k + insertOffset]
                    && r.1[k + insertOffset] == a
                    && r.1[k + insertOffset + 1..] == attrs[k + insertOffset..]
  {
    match IndexOfName(attrs, name)
    case None => (false, attrs)
    case Some(j) => (true, InsertAt(attrs, j + insertOffset, a))
  }

  /** True when the output holds none of the names of `ctx[lo..hi]`. */
  predicate NoneKnown(attrs: seq<Attr>, ctx: seq<Attr>, lo: int, hi: int)
    requires 0 <= lo && hi <= |ctx|
  {
    forall j :: lo <= j < hi ==> !ContainsName(attrs, ctx[j].name)
  }

  /** The backward loop of `CopyHtmlAttributeMaintainOrder`: tries the names of
      `ctx[i]`, `ctx[i-1]`, ..., `ctx[0]` and inserts `a` after the output
      attribute named like the first of them the output holds. */
  function InsertAfterPreceding(i: int, a: Attr, attrs: seq<Attr>, ctx: seq<Attr>): (r: Option<seq<Attr>>)
    requires -1 <= i < |ctx|
    decreases i + 1
    ensures r.None? <==> NoneKnown(attrs, ctx, 0, i + 1)
    ensures r.Some? ==> |r.value| == |attrs| + 1 && multiset(r.value) == multiset(attrs) + multiset{a}
    ensures forall j :: 0 <= j <= i && ContainsName(attrs, ctx[j].name) && NoneKnown(attrs, ctx, j + 1, i + 1)
              ==> r == Some(InsertAt(attrs, IndexOfName(attrs, ctx[j].name).value + 1, a))
  {
    if i < 0 then None
    else
      var (found, inserted) := TryFindNameAndInsertAttribute(ctx[i].name, 1, a, attrs);
      if found then Some(inserted) else InsertAfterPreceding(i - 1, a, attrs, ctx)
  }

  /** The forward loop of `CopyHtmlAttributeMaintainOrder`: tries the names of
      `ctx[i]`, `ctx[i+1]`, ... and inserts `a` before the output attribute
      named like the first of them the output holds. */
  function InsertBeforeFollowing(i: nat, a: Attr, attrs: seq<Attr>, ctx: seq<Attr>): (r: Option<seq<Attr>>)
    requires i <= |ctx|
    decreases |ctx| - i
    ensures r.None? <==> NoneKnown(attrs, ctx, i, |ctx|)
    ensures r.Some? ==> |r.value| == |attrs| + 1 && multiset(r.value) == multiset(attrs) + multiset{a}
    ensures forall j :: i <= j < |ctx| && ContainsName(attrs, ctx[j].name) && NoneKnown(attrs, ctx, i, j)
              ==> r == Some(InsertAt(attrs, IndexOfName(attrs, ctx[j].name).value, a))
  {
    if i == |ctx| then None
    else
      var (found, inserted) := TryFindNameAndInsertAttribute(ctx[i].name, 0, a, attrs);
      if found then
        assert forall j :: i < j <= |ctx| ==> !NoneKnown(attrs, ctx, i, j);
        Some(inserted)
      else InsertBeforeFollowing(i + 1, a, attrs, ctx)
  }

  /** `CopyHtmlAttributeMaintainOrder`: copies `ctx[index]` into the output,
      next to the output attribute named like its nearest neighbour in `ctx`:
      after the nearest preceding one the output holds, else before the nearest
      following one, else at the end. */
  function CopyHtmlAttributeMaintainOrder(index: nat, attrs: seq<Attr>, ctx: seq<Attr>): (r: seq<Attr>)
    requires index < |ctx|
    ensures |r| == |attrs| + 1
    ensures multiset(r) == multiset(attrs) + multiset{ctx[index]}
    ensures forall j :: 0 <= j < index && ContainsName(attrs, ctx[j].name) && NoneKnown(attrs, ctx, j + 1, index)
              ==> r == InsertAt(attrs, IndexOfName(attrs, ctx[j].name).value + 1, ctx[index])
    ensures NoneKnown(attrs, ctx, 0, index) ==>
              forall j :: index < j < |ctx| && ContainsName(attrs, ctx[j].name) && NoneKnown(attrs, ctx, index + 1, j)
                ==> r == InsertAt(attrs, IndexOfName(attrs, ctx[j].name).value, ctx[index])
    ensures NoneKnown(attrs, ctx, 0, index) && NoneKnown(attrs, ctx, index + 1, |ctx|) ==> r == attrs + [ctx[index]]
  {
    var existing := ctx[index];
    var copied := Attr(existing.name, existing.value, existing.minimized);
    assert copied == ctx[index];
    match InsertAfterPreceding(index - 1, copied, attrs, ctx)
    case Some(r) => r
    case None =>
      match InsertBeforeFollowing(index + 1, copied, attrs, ctx)
      case Some(r) => r
      case None => attrs + [copied]
  }

  /** The attributes of `s` with the given name, in order. */
  function Matching(s: seq<Attr>, name: string): (r: seq<Attr>)
    decreases |s|
  {
    if |s| == 0 then []
    else Matching(s[..|s| - 1], name) + (if NameIs(s[|s| - 1], name) then [s[|s| - 1]] else [])
  }

  /** The loop of `CopyHtmlAttribute` over `ctx[i]`, `ctx[i-1]`, ..., `ctx[0]`:
      each attribute with the name is copied; `copied` is the loop's flag. */
  function CopyMatches(i: int, name: string, attrs: seq<Attr>, ctx: seq<Attr>, copied: bool)
    : (r: (seq<Attr>, bool))
    requires -1 <= i < |ctx|
    decreases i + 1
    ensures r.1 <==> copied || exists j :: 0 <= j <= i && NameIs(ctx[j], name)
    ensures |r.0| == |attrs| + |Matching(ctx[..i + 1], name)|
    ensures multiset(r.0) == multiset(attrs) + multiset(Matching(ctx[..i + 1], name))
  {
    if i < 0 then
      assert ctx[..0] == [];
      (attrs, copied)
    else
      assert ctx[..i + 1][..i] == ctx[..i];
      if NameIs(ctx[i], name) then
        CopyMatches(i - 1, name, CopyHtmlAttributeMaintainOrder(i, attrs, ctx), ctx, true)
      else
        CopyMatches(i - 1, name, attrs, ctx, copied)
  }

  /** `CopyHtmlAttribute`: when the output lacks the name, copies every context
      attribute with that name (from last to first) into it, each placed by
      `CopyHtmlAttributeMaintainOrder`; throws when the context has none. */
  function CopyHtmlAttribute(attrs: seq<Attr>, attributeName: string, ctx: seq<Attr>)
    : (r: Result<seq<Attr>, Error>)
    ensures ContainsName(attrs, attributeName) ==> r == Success(attrs)
    ensures r.Failure? <==> !ContainsName(attrs, attributeName) && !ContainsName(ctx, attributeName)
    ensures r.Failure? ==> r.error == AttributeDoesNotExist(attributeName)
    ensures r.Success? ==> ContainsName(r.value, attributeName)
    ensures r.Success? && !ContainsName(attrs, attributeName) ==>
              && |r.value| == |attrs| + |Matching(ctx, attributeName)|
              && multiset(r.value) == multiset(attrs) + multiset(Matching(ctx, attributeName))
  {
    if ContainsName(attrs, attributeName) then Success(attrs)
    else
      var (result, copiedAttribute) := CopyMatches(|ctx| - 1, attributeName, attrs, ctx, false);
      assert ctx[..|ctx|] == ctx;
      if !copiedAttribute then Failure(AttributeDoesNotExist(attributeName))
      else
        var j :| 0 <= j < |ctx| && NameIs(ctx[j], attributeName);
        MatchingHolds(ctx, j, attributeName);
        assert ctx[j] in multiset(result);
        MemberNameIsContained(result, ctx[j], attributeName);
        Success(result)
  }

  /** Copying the same attribute a second time changes nothing: after a
      successful copy the output holds the name. */
  lemma CopyHtmlAttributeIsIdempotent(attrs: seq<Attr>, attributeName: string, ctx: seq<Attr>)
    requires CopyHtmlAttribute(attrs, attributeName, ctx).Success?
    ensures var once := CopyHtmlAttribute(attrs, attributeName, ctx).value;
            CopyHtmlAttribute(once, attributeName, ctx) == Success(once)
  {
  }

  /** The copy loop over a context prefix without the name changes nothing. */
  lemma {:induction false} CopyMatchesNoMatch(i: int, name: string, attrs: seq<Attr>, ctx: seq<Attr>, copied: bool)
    requires -1 <= i < |ctx|
    requires forall k :: 0 <= k <= i ==> !NameIs(ctx[k], name)
    ensures CopyMatches(i, name, attrs, ctx, copied) == (attrs, copied)
    decreases i + 1
  {
    if i >= 0 {
      CopyMatchesNoMatch(i - 1, name, attrs, ctx, copied);
    }
  }

  /** The copy loop over a context prefix whose only attribute with the name
      is `ctx[j]` places that one copy as `CopyHtmlAttributeMaintainOrder` does. */
  lemma {:induction false} CopyMatchesSingle(i: int, j: nat, name: string, attrs: seq<Attr>, ctx: seq<Attr>, copied: bool)
    requires j <= i < |ctx| && NameIs(ctx[j], name)
    requires forall k :: 0 <= k <= i && k != j ==> !NameIs(ctx[k], name)
    ensures CopyMatches(i, name, attrs, ctx, copied).0 == CopyHtmlAttributeMaintainOrder(j, attrs, ctx)
    ensures CopyMatches(i, name, attrs, ctx, copied).1
    decreases i
  {
    if i > j {
      CopyMatchesSingle(i - 1, j, name, attrs, ctx, copied);
      CopyMatchesSkip(i, name, attrs, ctx, copied);
    } else {
      CopyMatchesFirstOfSingle(i, name, attrs, ctx, copied);
    }
  }

  /** The base case of `CopyMatchesSingle`: the match is the last index tried. */
  lemma CopyMatchesFirstOfSingle(i: nat, name: string, attrs: seq<Attr>, ctx: seq<Attr>, copied: bool)
    requires i < |ctx| && NameIs(ctx[i], name)
    requires forall k :: 0 <= k < i ==> !NameIs(ctx[k], name)
    ensures CopyMatches(i, name, attrs, ctx, copied).0 == CopyHtmlAttributeMaintainOrder(i, attrs, ctx)
    ensures CopyMatches(i, name, attrs, ctx, copied).1
  {
    var placed := CopyHtmlAttributeMaintainOrder(i, attrs, ctx);
    assert CopyMatches(i, name, attrs, ctx, copied) == CopyMatches(i - 1, name, placed, ctx, true);
    CopyMatchesNoMatch(i - 1, name, placed, ctx, true);
  }

  /** One step of the copy loop over an index without the name. */
  lemma CopyMatchesSkip(i: nat, name: string, attrs: seq<Attr>, ctx: seq<Attr>, copied: bool)
    requires i < |ctx| && !NameIs(ctx[i], name)
    ensures CopyMatches(i, name, attrs, ctx, copied) == CopyMatches(i - 1, name, attrs, ctx, copied)
  {
  }

  /** Copying a name the context holds once, into an output that lacks it,
      puts the copy where `CopyHtmlAttributeMaintainOrder` places it: after the
      nearest preceding context neighbour the output holds, else before the
      nearest following one, else at the end. */
  lemma CopyHtmlAttributeSingleMatch(attrs: seq<Attr>, attributeName: string, ctx: seq<Attr>, j: nat)
    requires !ContainsName(attrs, attributeName)
    requires j < |ctx| && NameIs(ctx[j], attributeName)
    requires forall k :: 0 <= k < |ctx| && k != j ==> !NameIs(ctx[k], attributeName)
    ensures CopyHtmlAttribute(attrs, attributeName, ctx) == Success(CopyHtmlAttributeMaintainOrder(j, attrs, ctx))
  {
    CopyMatchesSingle(|ctx| - 1, j, attributeName, attrs, ctx, false);
  }

  /** Every attribute of `s` with the name appears in `Matching(s, name)`. */
  lemma {:induction false} MatchingHolds(s: seq<Attr>, j: nat, name: string)
    requires j < |s| && NameIs(s[j], name)
    ensures s[j] in Matching(s, name)
    decreases |s|
  {
    if j < |s| - 1 {
      assert s[..|s| - 1][j] == s[j];
      MatchingHolds(s[..|s| - 1], j, name);
    }
  }

  /** The attributes of `s` not named `name`, in order. */
  function Without(s: seq<Attr>, name: string): (r: seq<Attr>)
    decreases |s|
  {
    if |s| == 0 then []
    else (if NameIs(s[0], name) then [] else [s[0]]) + Without(s[1..], name)
  }

  /** `Without` keeps exactly the attributes not named `name`. */
  lemma {:induction false} WithoutMembers(s: seq<Attr>, name: string, x: Attr)
    ensures x in Without(s, name) <==> x in s && !NameIs(x, name)
    decreases |s|
  {
    if |s| > 0 {
      WithoutMembers(s[1..], name, x);
      assert s == [s[0]] + s[1..];
    }
  }

  /** The loop of the by-name indexer setter: the first attribute named `name`
      becomes `a` (once `replaced` is false) and every later one is removed. */
  function ReplaceFirstRemoveRest(attrs: seq<Attr>, name: string, a: Attr, replaced: bool): (r: seq<Attr>)
    requires NameIs(a, name)
    decreases |attrs|
    ensures Without(r, name) == Without(attrs, name)
    ensures replaced ==> r == Without(attrs, name)
  {
    if |attrs| == 0 then []
    else if NameIs(attrs[0], name) then
      var rest := ReplaceFirstRemoveRest(attrs[1..], name, a, true);
      if replaced then rest
      else
        assert ([a] + rest)[1..] == rest;
        [a] + rest
    else
      var rest := ReplaceFirstRemoveRest(attrs[1..], name, a, replaced);
      assert ([attrs[0]] + rest)[1..] == rest;
      [attrs[0]] + rest
  }

  /** `k` is the index of the first attribute with the name. */
  predicate IsFirstIndex(attrs: seq<Attr>, name: string, k: nat) {
    && k < |attrs| && NameIs(attrs[k], name)
    && forall i :: 0 <= i < k ==> !NameIs(attrs[i], name)
  }

  /** The setter puts `a` where the first attribute with the name was, leaves
      everything before it alone and drops the later ones with the name. */
  lemma {:induction false} ReplaceFirstPosition(attrs: seq<Attr>, name: string, a: Attr, k: nat)
    requires NameIs(a, name) && IsFirstIndex(attrs, name, k)
    ensures var r := ReplaceFirstRemoveRest(attrs, name, a, false);
            r == attrs[..k] + [a] + Without(attrs[k + 1..], name)
    ensures var r := ReplaceFirstRemoveRest(attrs, name, a, false);
            |r| > k && r[..k] == attrs[..k] && r[k] == a
    decreases k
  {
    var r := ReplaceFirstRemoveRest(attrs, name, a, false);
    var w := Without(attrs[k + 1..], name);
    if k == 0 {
      assert r == [a] + Without(attrs[1..], name);
      assert attrs[..0] == [];
    } else {
      assert !NameIs(attrs[0], name);
      var tail := attrs[1..];
      forall i | 0 <= i < k - 1 ensures !NameIs(tail[i], name) {
        assert tail[i] == attrs[i + 1];
      }
      assert tail[k - 1] == attrs[k];
      ReplaceFirstPosition(tail, name, a, k - 1);
      var rest := ReplaceFirstRemoveRest(tail, name, a, false);
      assert r == [attrs[0]] + rest;
      assert tail[k..] == attrs[k + 1..];
      assert rest == tail[..k - 1] + [a] + w;
      HeadThenPrefix(attrs, k);
      ConcatAssociates([attrs[0]], tail[..k - 1] + [a], w);
      ConcatAssociates([attrs[0]], tail[..k - 1], [a]);
    }
    SplicePrefix(attrs[..k], a, w);
  }

  /** A non-empty prefix is the head followed by a prefix of the tail. */
  lemma HeadThenPrefix(s: seq<Attr>, k: nat)
    requires 0 < k <= |s|
    ensures s[..k] == [s[0]] + s[1..][..k - 1]
  {
    assert forall i :: 0 <= i < k ==> s[..k][i] == ([s[0]] + s[1..][..k - 1])[i];
  }

  /** Splicing `a` in after `p` keeps `p` as the prefix and puts `a` next. */
  lemma SplicePrefix(p: seq<Attr>, a: Attr, w: seq<Attr>)
    ensures var r := p + [a] + w; |r| > |p| && r[..|p|] == p && r[|p|] == a
  {
    var r := p + [a] + w;
    assert r[..|p|] == p;
  }

  /** `attributes[name] = value` on a `TagHelperAttributeList` with a string:
      the first attribute with the name becomes (`name`, `value`, not minimized),
      later ones with the name are removed; without one it is appended. */
  function SetByName(attrs: seq<Attr>, name: string, value: string): (r: seq<Attr>)
    ensures Without(r, name) == Without(attrs, name)
    ensures ContainsName(attrs, name) ==>
              var k := IndexOfName(attrs, name).value;
              && r == attrs[..k] + [Attr(name, value, false)] + Without(attrs[k + 1..], name)
              && |r| > k && r[..k] == attrs[..k] && r[k] == Attr(name, value, false)
    ensures !ContainsName(attrs, name) ==> r == attrs + [Attr(name, value, false)]
  {
    var a := Attr(name, value, false);
    assert NameIs(a, name);
    if ContainsName(attrs, name) then
      ReplaceFirstPosition(attrs, name, a, IndexOfName(attrs, name).value);
      ReplaceFirstRemoveRest(attrs, name, a, false)
    else
      WithoutAppend(attrs, a, name);
      attrs + [a]
  }

  lemma {:induction false} WithoutAppend(s: seq<Attr>, a: Attr, name: string)
    requires NameIs(a, name)
    ensures Without(s + [a], name) == Without(s, name)
    decreases |s|
  {
    if |s| == 0 {
      assert s + [a] == [a];
    } else {
      assert (s + [a])[1..] == s[1..] + [a];
      WithoutAppend(s[1..], a, name);
    }
  }

  /** One iteration of `MergeAttributes`, for the builder attribute (`key`, `value`). */
  function MergeAttribute(attrs: seq<Attr>, key: string, value: string): (r: seq<Attr>)
    ensures !ContainsName(attrs, key) ==> r == attrs + [Attr(key, value, false)]
    ensures ContainsName(attrs, key) && !EqualsIgnoreCase(key, "class") ==> r == attrs
    ensures ContainsName(attrs, key) && EqualsIgnoreCase(key, "class") ==>
              var k := IndexOfName(attrs, "class").value;
              && r == attrs[..k] + [Attr("class", attrs[k].value + " " + value, false)] + Without(attrs[k + 1..], "class")
              && |r| > k && r[..k] == attrs[..k]
              && r[k] == Attr("class", attrs[k].value + " " + value, false)
              && Without(r, "class") == Without(attrs, "class")
    ensures ContainsName(r, key)
    ensures forall x :: x in attrs && !NameIs(x, "class") ==> x in r
    ensures forall x :: x in r && !NameIs(x, "class") ==> x in attrs || x == Attr(key, value, false)
  {
    if !ContainsName(attrs, key) then
      var r := attrs + [Attr(key, value, false)];
      MemberNameIsContained(r, Attr(key, value, false), key);
      r
    else if EqualsIgnoreCase(key, "class") then
      ContainsNameIgnoresCase(attrs, key, "class");
      match IndexOfName(attrs, "class")
      case Some(i) =>
        var r := SetByName(attrs, "class", attrs[i].value + " " + value);
        assert r[i] in r && NameIs(r[i], key);
        MemberNameIsContained(r, r[i], key);
        forall x | !NameIs(x, "class")
          ensures x in attrs <==> x in r
        {
          WithoutMembers(attrs, "class", x);
          WithoutMembers(r, "class", x);
        }
        r
      case None => attrs + [Attr("class", value, false)]
    else
      attrs
  }

  /** A name the output holds is still held after a merge step. */
  lemma MergeAttributeKeepsNames(attrs: seq<Attr>, key: string, value: string, name: string)
    requires ContainsName(attrs, name)
    ensures ContainsName(MergeAttribute(attrs, key, value), name)
  {
    var r := MergeAttribute(attrs, key, value);
    var i :| 0 <= i < |attrs| && NameIs(attrs[i], name);
    if NameIs(attrs[i], "class") {
      if ContainsName(attrs, key) && EqualsIgnoreCase(key, "class") {
        ContainsNameIgnoresCase(r, key, name);
      } else if !ContainsName(attrs, key) {
        assert r[i] == attrs[i];
      }
    } else {
      MemberNameIsContained(r, attrs[i], name);
    }
  }

  /** `MergeAttributes`: merges the builder's attributes, in order, into the
      output. Afterwards the output holds every builder attribute's name, every
      name it held before, and every one of its own attributes not named `class`. */
  function MergeAttributes(attrs: seq<Attr>, builder: seq<(string, string)>): (r: seq<Attr>)
    decreases |builder|
    ensures forall i :: 0 <= i < |builder| ==> ContainsName(r, builder[i].0)
    ensures forall name :: ContainsName(attrs, name) ==> ContainsName(r, name)
    ensures forall x :: x in attrs && !NameIs(x, "class") ==> x in r
    ensures forall x :: x in r && !NameIs(x, "class") ==> x in attrs || x in Appended(builder)
  {
    if |builder| == 0 then attrs
    else
      var next := MergeAttribute(attrs, builder[0].0, builder[0].1);
      MergeAttributeKeepsAllNames(attrs, builder[0].0, builder[0].1);
      var r := MergeAttributes(next, builder[1..]);
      assert forall i :: 1 <= i < |builder| ==> builder[i] == builder[1..][i - 1];
      AppendedCons(builder);
      r
  }

  /** `MergeAttributeKeepsNames` for every name. */
  lemma MergeAttributeKeepsAllNames(attrs: seq<Attr>, key: string, value: string)
    ensures forall name :: ContainsName(attrs, name) ==> ContainsName(MergeAttribute(attrs, key, value), name)
  {
    forall name | ContainsName(attrs, name)
      ensures ContainsName(MergeAttribute(attrs, key, value), name)
    {
      MergeAttributeKeepsNames(attrs, key, value, name);
    }
  }

  /** Merging a builder with one more entry is merging the shorter builder,
      then that entry: `MergeAttributes` is `MergeAttribute` applied entry by
      entry, in builder order, whatever mix of new, known and `class` names
      the builder holds. */
  lemma {:induction false} MergeAttributesSnoc(attrs: seq<Attr>, builder: seq<(string, string)>, entry: (string, string))
    ensures MergeAttributes(attrs, builder + [entry])
            == MergeAttribute(MergeAttributes(attrs, builder), entry.0, entry.1)
    decreases |builder|
  {
    if |builder| > 0 {
      var next := MergeAttribute(attrs, builder[0].0, builder[0].1);
      assert (builder + [entry])[0] == builder[0];
      assert (builder + [entry])[1..] == builder[1..] + [entry];
      MergeAttributesSnoc(next, builder[1..], entry);
    } else {
      assert builder + [entry] == [entry];
    }
  }

  /** Appending an attribute with another name keeps a name absent. */
  lemma AppendKeepsNameAbsent(attrs: seq<Attr>, a: Attr, name: string)
    requires !ContainsName(attrs, name) && !NameIs(a, name)
    ensures !ContainsName(attrs + [a], name)
  {
    forall k | 0 <= k < |attrs| + 1
      ensures !NameIs((attrs + [a])[k], name)
    {
      if k < |attrs| {
        assert (attrs + [a])[k] == attrs[k];
      }
    }
  }

  /** The attributes `MergeAttributes` appends for builder entries with new names. */
  function Appended(builder: seq<(string, string)>): (r: seq<Attr>)
    ensures |r| == |builder|
    ensures forall i :: 0 <= i < |builder| ==> r[i] == Attr(builder[i].0, builder[i].1, false)
  {
    seq(|builder|, i requires 0 <= i < |builder| => Attr(builder[i].0, builder[i].1, false))
  }

  /** No builder entry names an attribute the output already holds. */
  predicate NamesNew(attrs: seq<Attr>, builder: seq<(string, string)>) {
    forall i :: 0 <= i < |builder| ==> !ContainsName(attrs, builder[i].0)
  }

  /** No two builder entries have names equal ignoring case. */
  predicate NamesDistinct(builder: seq<(string, string)>) {
    forall i, j :: 0 <= i < j < |builder| ==> !EqualsIgnoreCase(builder[i].0, builder[j].0)
  }

  /** Names new to the output and to each other before an append stay so for
      the rest of the builder after it. */
  lemma NewNamesStayNew(attrs: seq<Attr>, builder: seq<(string, string)>)
    requires |builder| > 0
    requires NamesNew(attrs, builder) && NamesDistinct(builder)
    ensures NamesNew(attrs + [Attr(builder[0].0, builder[0].1, false)], builder[1..])
    ensures NamesDistinct(builder[1..])
  {
    var first := Attr(builder[0].0, builder[0].1, false);
    var tail := builder[1..];
    forall i | 0 <= i < |tail|
      ensures !ContainsName(attrs + [first], tail[i].0)
    {
      assert tail[i] == builder[i + 1];
      assert !EqualsIgnoreCase(builder[0].0, builder[i + 1].0);
      AppendKeepsNameAbsent(attrs, first, tail[i].0);
    }
    forall i, j | 0 <= i < j < |tail|
      ensures !EqualsIgnoreCase(tail[i].0, tail[j].0)
    {
      assert tail[i] == builder[i + 1] && tail[j] == builder[j + 1];
    }
  }

  /** One merge step with a new name appends it. */
  lemma MergeNewNameStep(attrs: seq<Attr>, builder: seq<(string, string)>)
    requires |builder| > 0 && !ContainsName(attrs, builder[0].0)
    ensures MergeAttributes(attrs, builder)
            == MergeAttributes(attrs + [Attr(builder[0].0, builder[0].1, false)], builder[1..])
  {
  }

  /** `Appended` unrolled once. */
  lemma AppendedCons(builder: seq<(string, string)>)
    requires |builder| > 0
    ensures Appended(builder) == [Attr(builder[0].0, builder[0].1, false)] + Appended(builder[1..])
  {
  }

  /** Sequence concatenation is associative. */
  lemma ConcatAssociates(a: seq<Attr>, b: seq<Attr>, c: seq<Attr>)
    ensures a + (b + c) == (a + b) + c
  {
  }

  /** Builder attributes whose names are new (to the output and to each other)
      are appended in builder order, not minimized. */
  lemma {:induction false} MergeNewNamesAppends(attrs: seq<Attr>, builder: seq<(string, string)>)
    requires NamesNew(attrs, builder) && NamesDistinct(builder)
    ensures MergeAttributes(attrs, builder) == attrs + Appended(builder)
    decreases |builder|
  {
    if |builder| > 0 {
      var next := attrs + [Attr(builder[0].0, builder[0].1, false)];
      MergeNewNameStep(attrs, builder);
      NewNamesStayNew(attrs, builder);
      MergeNewNamesAppends(next, builder[1..]);
      AppendedCons(builder);
      ConcatAssociates(attrs, [Attr(builder[0].0, builder[0].1, false)], Appended(builder[1..]));
    }
  }

  /** Builder attributes other than `class` whose names the output already
      holds change nothing: existing attributes are never replaced. */
  lemma {:induction false} MergeKnownNamesIsIdentity(attrs: seq<Attr>, builder: seq<(string, string)>)
    requires forall i :: 0 <= i < |builder| ==> ContainsName(attrs, builder[i].0)
    requires forall i :: 0 <= i < |builder| ==> !EqualsIgnoreCase(builder[i].0, "class")
    ensures MergeAttributes(attrs, builder) == attrs
    decreases |builder|
  {
    if |builder| > 0 {
      assert MergeAttribute(attrs, builder[0].0, builder[0].1) == attrs;
      forall i | 0 <= i < |builder[1..]|
        ensures ContainsName(attrs, builder[1..][i].0) && !EqualsIgnoreCase(builder[1..][i].0, "class")
      {
        assert builder[1..][i] == builder[i + 1];
      }
      MergeKnownNamesIsIdentity(attrs, builder[1..]);
    }
  }

  /** `TagHelperAttribute` equality: name ignoring case, value and minimized flag. */
  predicate SameAttribute(x: Attr, y: Attr) {
    EqualsIgnoreCase(x.name, y.name) && x.value == y.value && x.minimized == y.minimized
  }

  /** True when some attribute of the list equals `a`. */
  predicate HasAttribute(attrs: seq<Attr>, a: Attr) {
    exists i :: 0 <= i < |attrs| && SameAttribute(attrs[i], a)
  }

  /** When the head differs from `a`, the list holds `a` exactly when its tail does. */
  lemma HasAttributeTail(attrs: seq<Attr>, a: Attr)
    requires |attrs| > 0 && !SameAttribute(attrs[0], a)
    ensures HasAttribute(attrs, a) <==> HasAttribute(attrs[1..], a)
  {
    if HasAttribute(attrs, a) {
      var i :| 0 <= i < |attrs| && SameAttribute(attrs[i], a);
      assert i > 0 && attrs[1..][i - 1] == attrs[i];
    }
    if HasAttribute(attrs[1..], a) {
      var i :| 0 <= i < |attrs[1..]| && SameAttribute(attrs[1..][i], a);
      assert attrs[i + 1] == attrs[1..][i];
    }
  }

  /** `k` is the index of the first attribute equal to `a`. */
  predicate IsFirstSame(attrs: seq<Attr>, a: Attr, k: nat) {
    && k < |attrs| && SameAttribute(attrs[k], a)
    && forall i :: 0 <= i < k ==> !SameAttribute(attrs[i], a)
  }

  /** The number of attributes of `s` equal to `a`. */
  function CountSame(s: seq<Attr>, a: Attr): nat
    decreases |s|
  {
    if |s| == 0 then 0 else (if SameAttribute(s[0], a) then 1 else 0) + CountSame(s[1..], a)
  }

  /** `s` is `t` with some attributes left out and the rest kept in order. */
  predicate Subsequence(s: seq<Attr>, t: seq<Attr>)
    decreases |t|
  {
    if |s| == 0 then true
    else if |t| == 0 then false
    else (s[0] == t[0] && Subsequence(s[1..], t[1..])) || Subsequence(s, t[1..])
  }

  /** Every list is a subsequence of itself. */
  lemma {:induction false} SubsequenceReflexive(s: seq<Attr>)
    ensures Subsequence(s, s)
    decreases |s|
  {
    if |s| > 0 {
      SubsequenceReflexive(s[1..]);
    }
  }

  /** Leaving attributes out twice is leaving them out once. */
  lemma {:induction false} SubsequenceTransitive(a: seq<Attr>, b: seq<Attr>, c: seq<Attr>)
    requires Subsequence(a, b) && Subsequence(b, c)
    ensures Subsequence(a, c)
    decreases |c|
  {
    if |a| > 0 {
      assert |b| > 0 && |c| > 0;
      if Subsequence(b, c[1..]) {
        SubsequenceTransitive(a, b, c[1..]);
      } else {
        assert b[0] == c[0] && Subsequence(b[1..], c[1..]);
        if a[0] == b[0] && Subsequence(a[1..], b[1..]) {
          SubsequenceTransitive(a[1..], b[1..], c[1..]);
        } else {
          SubsequenceTransitive(a, b[1..], c[1..]);
        }
      }
    }
  }

  /** Attributes equal to each other are counted alike. */
  lemma {:induction false} CountSameRespectsEquality(s: seq<Attr>, x: Attr, y: Attr)
    requires SameAttribute(x, y)
    ensures CountSame(s, x) == CountSame(s, y)
    decreases |s|
  {
    if |s| > 0 {
      CountSameRespectsEquality(s[1..], x, y);
    }
  }

  /** A list holds an attribute equal to `a` exactly when it counts one. */
  lemma {:induction false} CountSamePositive(s: seq<Attr>, a: Attr)
    ensures CountSame(s, a) > 0 <==> HasAttribute(s, a)
    decreases |s|
  {
    if |s| > 0 {
      CountSamePositive(s[1..], a);
      if !SameAttribute(s[0], a) {
        HasAttributeTail(s, a);
      } else {
        assert SameAttribute(s[0], a);
      }
    }
  }

  /** The search of `Remove`: the index of the first attribute equal to `a`
      from index `j` on. */
  function IndexOfSameFrom(attrs: seq<Attr>, a: Attr, j: nat): (r: Option<nat>)
    requires j <= |attrs|
    decreases |attrs| - j
    ensures r.Some? ==> j <= r.value < |attrs| && SameAttribute(attrs[r.value], a)
    ensures r.Some? ==> forall i :: j <= i < r.value ==> !SameAttribute(attrs[i], a)
    ensures r.None? ==> forall i :: j <= i < |attrs| ==> !SameAttribute(attrs[i], a)
  {
    if j == |attrs| then None
    else if SameAttribute(attrs[j], a) then Some(j)
    else IndexOfSameFrom(attrs, a, j + 1)
  }

  /** Counting distributes over concatenation. */
  lemma {:induction false} CountSameAppend(s: seq<Attr>, t: seq<Attr>, b: Attr)
    ensures CountSame(s + t, b) == CountSame(s, b) + CountSame(t, b)
    decreases |s|
  {
    if |s| == 0 {
      assert s + t == t;
    } else {
      assert (s + t)[0] == s[0];
      assert (s + t)[1..] == s[1..] + t;
      CountSameAppend(s[1..], t, b);
    }
  }

  /** Deleting the attribute at `k` lowers only the count of attributes equal to it. */
  lemma CountSameDelete(t: seq<Attr>, k: nat, b: Attr)
    requires k < |t|
    ensures CountSame(t[..k] + t[k + 1..], b) == CountSame(t, b) - (if SameAttribute(t[k], b) then 1 else 0)
  {
    assert t == t[..k] + ([t[k]] + t[k + 1..]);
    CountSameAppend(t[..k], [t[k]] + t[k + 1..], b);
    CountSameAppend([t[k]], t[k + 1..], b);
    CountSameAppend(t[..k], t[k + 1..], b);
  }

  /** Deleting one attribute leaves a subsequence. */
  lemma {:induction false} SubsequenceOfDelete(t: seq<Attr>, k: nat)
    requires k < |t|
    ensures Subsequence(t[..k] + t[k + 1..], t)
    decreases k
  {
    var s := t[..k] + t[k + 1..];
    if k == 0 {
      assert s == t[1..];
      SubsequenceReflexive(t[1..]);
    } else {
      SubsequenceOfDelete(t[1..], k - 1);
      assert s[0] == t[0];
      assert s[1..] == t[1..][..k - 1] + t[1..][k..];
    }
  }

  /** What deleting the first attribute equal to `a` does to the list. */
  lemma DeleteFirstSame(attrs: seq<Attr>, a: Attr, k: nat, r: seq<Attr>)
    requires IsFirstSame(attrs, a, k) && r == attrs[..k] + attrs[k + 1..]
    ensures HasAttribute(attrs, a) && |r| == |attrs| - 1
    ensures forall j: nat :: IsFirstSame(attrs, a, j) ==> j == k
    ensures Subsequence(r, attrs)
    ensures multiset(r) <= multiset(attrs)
    ensures forall x :: !SameAttribute(x, a) ==> multiset(r)[x] == multiset(attrs)[x]
  {
    assert SameAttribute(attrs[k], a);
    DeleteMultiset(attrs, k, r);
    SubsequenceOfDelete(attrs, k);
  }

  /** Deleting the attribute at `k` (giving `r`) takes exactly one copy of it
      out of the multiset. */
  lemma DeleteMultiset(attrs: seq<Attr>, k: nat, r: seq<Attr>)
    requires k < |attrs| && r == attrs[..k] + attrs[k + 1..]
    ensures multiset(attrs) == multiset(r) + multiset{attrs[k]}
  {
    assert attrs == attrs[..k] + [attrs[k]] + attrs[k + 1..];
  }

  /** Deleting an attribute equal to `a` (giving `r`) lowers the count of
      every attribute equal to `a` by one. */
  lemma DeleteSameCounts(attrs: seq<Attr>, a: Attr, k: nat, r: seq<Attr>)
    requires k < |attrs| && SameAttribute(attrs[k], a) && r == attrs[..k] + attrs[k + 1..]
    ensures forall x :: CountSame(r, x) == Floor0(CountSame(attrs, x) - (if SameAttribute(a, x) then 1 else 0))
  {
    forall x
      ensures CountSame(r, x) == Floor0(CountSame(attrs, x) - (if SameAttribute(a, x) then 1 else 0))
    {
      CountSameDelete(attrs, k, x);
      SameAttributeSwap(attrs[k], a, x);
    }
  }

  /** Attributes equal to each other equal the same attributes. */
  lemma SameAttributeSwap(y: Attr, a: Attr, x: Attr)
    requires SameAttribute(y, a)
    ensures SameAttribute(y, x) == SameAttribute(a, x)
  {
  }

  /** A list without an attribute equal to `a` counts no attribute equal to `a`. */
  lemma AbsentCountsZero(attrs: seq<Attr>, a: Attr)
    requires !HasAttribute(attrs, a)
    ensures forall x :: SameAttribute(a, x) ==> CountSame(attrs, x) == 0
  {
    forall x | SameAttribute(a, x)
      ensures CountSame(attrs, x) == 0
    {
      CountSamePositive(attrs, a);
      CountSameRespectsEquality(attrs, x, a);
    }
  }

  /** `TagHelperAttributeList.Remove(attribute)`: removes the first attribute
      equal to `a`, if any. Which one it removes is stated by
      `RemoveDropsFirstEqual`, what it does to the list's contents by
      `RemoveKeepsOthers` and `RemoveCount`. */
  function Remove(attrs: seq<Attr>, a: Attr): (r: seq<Attr>)
    ensures HasAttribute(attrs, a) ==> |r| == |attrs| - 1
    ensures !HasAttribute(attrs, a) ==> r == attrs
  {
    match IndexOfSameFrom(attrs, a, 0)
    case None => attrs
    case Some(k) =>
      var r := attrs[..k] + attrs[k + 1..];
      DeleteFirstSame(attrs, a, k, r);
      r
  }

  /** `Remove` leaves a subsequence of the list, takes at most one copy of
      anything out, and keeps every attribute not equal to `a`. */
  lemma RemoveKeepsOthers(attrs: seq<Attr>, a: Attr)
    ensures Subsequence(Remove(attrs, a), attrs)
    ensures multiset(Remove(attrs, a)) <= multiset(attrs)
    ensures forall x :: !SameAttribute(x, a) ==> multiset(Remove(attrs, a))[x] == multiset(attrs)[x]
  {
    match IndexOfSameFrom(attrs, a, 0)
    case None =>
      SubsequenceReflexive(attrs);
    case Some(k) =>
      DeleteFirstSame(attrs, a, k, Remove(attrs, a));
  }

  /** `Remove` lowers the count of attributes equal to `a` by one, floored at
      zero, and leaves every other count alone. */
  lemma RemoveCount(attrs: seq<Attr>, a: Attr, x: Attr)
    ensures CountSame(Remove(attrs, a), x) == Floor0(CountSame(attrs, x) - (if SameAttribute(a, x) then 1 else 0))
  {
    match IndexOfSameFrom(attrs, a, 0)
    case None =>
      AbsentCountsZero(attrs, a);
    case Some(k) =>
      DeleteSameCounts(attrs, a, k, Remove(attrs, a));
  }

  /** The list holds an attribute equal to `a` exactly when there is a first
      one; `Remove` takes that one out and keeps the others in order. */
  lemma {:induction false} RemoveDropsFirstEqual(attrs: seq<Attr>, a: Attr) returns (k: nat)
    requires HasAttribute(attrs, a)
    ensures IsFirstSame(attrs, a, k)
    ensures Remove(attrs, a) == attrs[..k] + attrs[k + 1..]
  {
    var found := IndexOfSameFrom(attrs, a, 0);
    if found.None? {
      assert false;
    }
    k := found.value;
  }

  /** True when `x` equals none of the listed attributes. */
  predicate Unlisted(x: Attr, attributes: seq<Attr>) {
    forall j :: 0 <= j < |attributes| ==> !SameAttribute(x, attributes[j])
  }

  /** The arithmetic of one step of `Drain`: a count `c` lowered by `e` (the
      head of the list) and then by `t1` (the rest) is lowered by `t`, floored
      at zero throughout. */
  lemma CountStep(c: nat, removed: nat, t: nat, t1: nat, e: nat, n: int)
    requires removed == Floor0(c - e) && t == e + t1 && n == Floor0(removed - t1)
    ensures n == Floor0(c - t)
  {
  }

  /** Attributes equal to none of the list keep their count through `RemoveRange`'s step. */
  lemma UnlistedSteps(attrs: seq<Attr>, attributes: seq<Attr>, removed: seq<Attr>, r: seq<Attr>)
    requires |attributes| > 0
    requires forall x :: !SameAttribute(x, attributes[0]) ==> multiset(removed)[x] == multiset(attrs)[x]
    requires forall x :: Unlisted(x, attributes[1..]) ==> multiset(r)[x] == multiset(removed)[x]
    ensures forall x :: Unlisted(x, attributes) ==> multiset(r)[x] == multiset(attrs)[x]
  {
    UnlistedTail(attributes);
  }

  /** An attribute equal to none of a list equals neither its head nor any of its tail. */
  lemma UnlistedTail(attributes: seq<Attr>)
    requires |attributes| > 0
    ensures forall x :: Unlisted(x, attributes) ==> Unlisted(x, attributes[1..]) && !SameAttribute(x, attributes[0])
  {
    forall x | Unlisted(x, attributes)
      ensures Unlisted(x, attributes[1..]) && !SameAttribute(x, attributes[0])
    {
      forall j | 0 <= j < |attributes[1..]|
        ensures !SameAttribute(x, attributes[1..][j])
      {
        assert attributes[1..][j] == attributes[j + 1];
      }
    }
  }

  /** `n`, or 0 when `n` is negative. */
  function Floor0(n: int): nat {
    if n < 0 then 0 else n
  }

  /** `RemoveRange`: removes each listed attribute in turn (the list is a
      snapshot, so it may be the output's own list). */
  function RemoveRange(attrs: seq<Attr>, attributes: seq<Attr>): (r: seq<Attr>)
    decreases |attributes|
    ensures Subsequence(r, attrs)
    ensures multiset(r) <= multiset(attrs)
    ensures |attrs| - |attributes| <= |r| <= |attrs|
    ensures forall x :: Unlisted(x, attributes) ==> multiset(r)[x] == multiset(attrs)[x]
  {
    if |attributes| == 0 then
      SubsequenceReflexive(attrs);
      attrs
    else
      var a0 := attributes[0];
      var removed := Remove(attrs, a0);
      RemoveKeepsOthers(attrs, a0);
      var r := RemoveRange(removed, attributes[1..]);
      SubsequenceTransitive(r, removed, attrs);
      UnlistedSteps(attrs, attributes, removed, r);
      r
  }

  /** `RemoveRange` lowers the count of attributes equal to `x` by the number
      of listed attributes equal to `x`, floored at zero. */
  lemma RemoveRangeCount(attrs: seq<Attr>, attributes: seq<Attr>, x: Attr)
    ensures CountSame(RemoveRange(attrs, attributes), x) == Floor0(CountSame(attrs, x) - CountSame(attributes, x))
  {
    RemoveRangeDrains(attrs, attributes, x);
    DrainIsFloor(CountSame(attrs, x), attributes, x);
  }

  /** A count of attributes equal to `x`, lowered by one (never below zero) for
      each listed attribute equal to `x`, in list order. */
  function Drain(c: nat, attributes: seq<Attr>, x: Attr): nat
    decreases |attributes|
  {
    if |attributes| == 0 then c
    else Drain(Floor0(c - (if SameAttribute(attributes[0], x) then 1 else 0)), attributes[1..], x)
  }

  /** `RemoveRange` drains the count one listed attribute at a time. */
  lemma {:induction false} RemoveRangeDrains(attrs: seq<Attr>, attributes: seq<Attr>, x: Attr)
    ensures CountSame(RemoveRange(attrs, attributes), x) == Drain(CountSame(attrs, x), attributes, x)
    decreases |attributes|
  {
    if |attributes| > 0 {
      var removed := Remove(attrs, attributes[0]);
      assert RemoveRange(attrs, attributes) == RemoveRange(removed, attributes[1..]);
      RemoveRangeDrains(removed, attributes[1..], x);
      RemoveCount(attrs, attributes[0], x);
    }
  }

  /** Draining one at a time is subtracting the whole count at once, floored at zero. */
  lemma {:induction false} DrainIsFloor(c: nat, attributes: seq<Attr>, x: Attr)
    ensures Drain(c, attributes, x) == Floor0(c - CountSame(attributes, x))
    decreases |attributes|
  {
    if |attributes| > 0 {
      var e := if SameAttribute(attributes[0], x) then 1 else 0;
      DrainIsFloor(Floor0(c - e), attributes[1..], x);
      CountStep(c, Floor0(c - e), CountSame(attributes, x), CountSame(attributes[1..], x), e, Drain(c, attributes, x));
    }
  }

  /** Removing a list's own attributes from it, as a snapshot, empties it. */
  lemma {:induction false} RemoveRangeOfItselfEmpties(attrs: seq<Attr>)
    ensures RemoveRange(attrs, attrs) == []
    decreases |attrs|
  {
    if |attrs| > 0 {
      assert SameAttribute(attrs[0], attrs[0]);
      assert IndexOfSameFrom(attrs, attrs[0], 0) == Some(0);
      assert attrs[..0] + attrs[1..] == attrs[1..];
      assert Remove(attrs, attrs[0]) == attrs[1..];
      RemoveRangeOfItselfEmpties(attrs[1..]);
    }
  }

  /** Attributes that equal none of the listed ones leave the list untouched. */
  lemma {:induction false} RemoveRangeOfStrangersIsIdentity(attrs: seq<Attr>, attributes: seq<Attr>)
    requires forall i, j :: 0 <= i < |attrs| && 0 <= j < |attributes| ==> !SameAttribute(attrs[i], attributes[j])
    ensures RemoveRange(attrs, attributes) == attrs
    decreases |attributes|
  {
    if |attributes| > 0 {
      assert !HasAttribute(attrs, attributes[0]);
      forall i, j | 0 <= i < |attrs| && 0 <= j < |attributes[1..]|
        ensures !SameAttribute(attrs[i], attributes[1..][j])
      {
        assert attributes[1..][j] == attributes[j + 1];
      }
      RemoveRangeOfStrangersIsIdentity(attrs, attributes[1..]);
    }
  }
}

=== FILE: text.dfy ===
/** String helpers shared by the model: ordinal case-insensitive comparison,
    white-space classification and joining with a separator. */
module Text {
  import opened Wrappers

  /** Upper-case ASCII letters fold to lower case; every other character is kept. */
  function FoldChar(c: char): char {
    if 'A' <= c <= 'Z' then (c as int - 'A' as int + 'a' as int) as char else c
  }

  /** The string with every character folded. */
  function Fold(s: string): string
    decreases |s|
  {
    if |s| == 0 then "" else [FoldChar(s[0])] + Fold(s[1..])
  }

  /** `string.Equals(a, b, StringComparison.OrdinalIgnoreCase)`, restricted to ASCII case folding. */
  predicate EqualsIgnoreCase(a: string, b: string) {
    Fold(a) == Fold(b)
  }

  /** `char.IsWhiteSpace`: the Unicode space separators, line and paragraph
      separators, and the control characters U+0009 to U+000D, U+0085. */
  predicate IsWhiteSpace(c: char) {
    || c == ' '
    || '\t' <= c <= '\r'
    || c == '\U{85}'
    || c == '\U{A0}'
    || c == '\U{1680}'
    || '\U{2000}' <= c <= '\U{200A}'
    || c == '\U{2028}'
    || c == '\U{2029}'
    || c == '\U{202F}'
    || c == '\U{205F}'
    || c == '\U{3000}'
  }

  /** `string.IsNullOrWhiteSpace` applied to a non-null string: empty or only white space. */
  predicate IsBlank(s: string) {
    forall i :: 0 <= i < |s| ==> IsWhiteSpace(s[i])
  }

  /** The text `string.Join` contributes for one element: a null element contributes nothing. */
  function TextOf(s: Option<string>): string {
    s.GetOr("")
  }

  /** `string.Join(sep, xs)`. */
  function Join(sep: string, xs: seq<Option<string>>): string
    decreases |xs|
  {
    if |xs| == 0 then ""
    else if |xs| == 1 then TextOf(xs[0])
    else TextOf(xs[0]) + sep + Join(sep, xs[1..])
  }

  /** Joining one more element appends the separator and that element's text. */
  lemma {:induction false} JoinSnoc(sep: string, xs: seq<Option<string>>, y: Option<string>)
    requires |xs| > 0
    ensures Join(sep, xs + [y]) == Join(sep, xs) + sep + TextOf(y)
    decreases |xs|
  {
    if |xs| == 1 {
      assert xs + [y] == [xs[0], y];
      assert [xs[0], y][1..] == [y];
    } else {
      assert (xs + [y])[1..] == xs[1..] + [y];
      JoinSnoc(sep, xs[1..], y);
    }
  }

  /** The joined text is as long as all element texts plus one separator
      between each pair of neighbours. */
  lemma {:induction false} JoinLength(sep: string, xs: seq<Option<string>>)
    requires |xs| > 0
    ensures |Join(sep, xs)| == TextLengths(xs) + (|xs| - 1) * |sep|
    decreases |xs|
  {
    if |xs| > 1 {
      JoinLength(sep, xs[1..]);
    }
  }

  /** The total length of the element texts. */
  function TextLengths(xs: seq<Option<string>>): nat
    decreases |xs|
  {
    if |xs| == 0 then 0 else |TextOf(xs[0])| + TextLengths(xs[1..])
  }

  /** Case-insensitive equality is an equivalence relation. */
  lemma EqualsIgnoreCaseIsEquivalence(a: string, b: string, c: string)
    ensures EqualsIgnoreCase(a, a)
    ensures EqualsIgnoreCase(a, b) ==> EqualsIgnoreCase(b, a)
    ensures EqualsIgnoreCase(a, b) && EqualsIgnoreCase(b, c) ==> EqualsIgnoreCase(a, c)
  {
  }
}

=== FILE: value_provider_result.dfy ===
/** `ValueProviderResult`: zero, one or many raw strings found for a key, plus
    the culture to parse them in. A null `Values` array (the default value,
    `ValueProviderResult.None`) means "nothing found" and is kept apart from
    an empty array. */
module ValueProviderResults {
  import opened Wrappers
  import opened Text
  import opened Clr

  /** `values` is the `Values` array (`None` when null; its elements may be
      null too); `culture` is `Culture` (`None` only for the default value). */
  datatype ValueProviderResult = ValueProviderResult(
    values: Option<seq<Option<string>>>,
    culture: Option<Culture>)

  /** `ValueProviderResult.None`: the default struct, neither values nor culture. */
  const NoneResult: ValueProviderResult := ValueProviderResult(None, None)

  /** `Length`: the number of values, zero when there is no array at all. */
  function Length(x: ValueProviderResult): (r: nat)
    ensures r == 0 <==> x.values.None? || x.values.value == []
    ensures x.values.Some? ==> r == |x.values.value|
  {
    match x.values
    case None => 0
    case Some(vs) => |vs|
  }

  /** The explicit conversion to `string` (also what `ToString` returns):
      null for no values, the sole value, or the values joined with commas. */
  function AsString(x: ValueProviderResult): (r: Option<string>)
    ensures r.None? <==> Length(x) == 0 || (Length(x) == 1 && x.values.value[0].None?)
    ensures Length(x) == 1 ==> r == x.values.value[0]
    ensures Length(x) >= 2 ==> r == Some(Join(",", x.values.value)) && ',' in r.value
  {
    if Length(x) == 0 then None
    else if Length(x) == 1 then x.values.value[0]
    else
      var vs := x.values.value;
      assert Join(",", vs) == TextOf(vs[0]) + "," + Join(",", vs[1..]);
      assert Join(",", vs)[|TextOf(vs[0])|] == ',';
      Some(Join(",", vs))
  }

  /** `new ValueProviderResult(value)`: one value, invariant culture. */
  function FromString(value: string): (r: ValueProviderResult)
    ensures Length(r) == 1 && AsString(r) == Some(value)
    ensures r.culture == Some(InvariantCulture)
  {
    ValueProviderResult(Some([Some(value)]), Some(InvariantCulture))
  }

  /** `new ValueProviderResult(value, culture)`: one value, the given culture. */
  function FromStringAndCulture(value: string, culture: Culture): (r: ValueProviderResult)
    ensures Length(r) == 1 && AsString(r) == Some(value)
    ensures r.culture == Some(culture)
  {
    ValueProviderResult(Some([Some(value)]), Some(culture))
  }

  /** `new ValueProviderResult(values)`: the given (non-null) array, invariant culture. */
  function FromValues(values: seq<Option<string>>): (r: ValueProviderResult)
    ensures r.values == Some(values)
    ensures Length(r) == |values|
    ensures r.culture == Some(InvariantCulture)
    ensures !Equals(r, NoneResult)
  {
    ValueProviderResult(Some(values), Some(InvariantCulture))
  }

  /** `new ValueProviderResult(values, culture)`. */
  function FromValuesAndCulture(values: seq<Option<string>>, culture: Culture): (r: ValueProviderResult)
    ensures r.values == Some(values)
    ensures Length(r) == |values|
    ensures r.culture == Some(culture)
    ensures !Equals(r, NoneResult)
  {
    ValueProviderResult(Some(values), Some(culture))
  }

  /** The element-wise ordinal comparison loop of `Equals`, from index `i` on. */
  function ElementsEqualFrom(xs: seq<Option<string>>, ys: seq<Option<string>>, i: nat): (r: bool)
    requires |xs| == |ys| && i <= |xs|
    decreases |xs| - i
    ensures r <==> xs[i..] == ys[i..]
  {
    if i == |xs| then true
    else if xs[i] != ys[i] then
      assert xs[i..][0] != ys[i..][0];
      false
    else
      assert xs[i..] == [xs[i]] + xs[i + 1..];
      assert ys[i..] == [ys[i]] + ys[i + 1..];
      ElementsEqualFrom(xs, ys, i + 1)
  }

  /** `Equals(ValueProviderResult)`: both arrays null, or both non-null with
      the same length and ordinally equal elements. The culture is ignored. */
  function Equals(x: ValueProviderResult, other: ValueProviderResult): (r: bool)
    ensures r <==> x.values == other.values
  {
    if x.values.None? && other.values.None? then true
    else if x.values.None? != other.values.None? then false
    else if |x.values.value| != |other.values.value| then false
    else ElementsEqualFrom(x.values.value, other.values.value, 0)
  }

  /** `operator ==`. */
  function OperatorEquals(x: ValueProviderResult, y: ValueProviderResult): (r: bool)
    ensures r <==> x.values == y.values
  {
    Equals(x, y)
  }

  /** `operator !=`. */
  function OperatorNotEquals(x: ValueProviderResult, y: ValueProviderResult): (r: bool)
    ensures r <==> x.values != y.values
  {
    !Equals(x, y)
  }

  /** `GetHashCode()` as written: the hash of the string conversion, which
      throws when that conversion is null. */
  function GetHashCode(x: ValueProviderResult, stringHash: string -> int): (r: Result<int, Exception>)
    ensures r.Failure? <==> AsString(x).None?
    ensures r.Failure? ==> r.error.kind == NullReference
    ensures r.Success? ==> r.value == stringHash(AsString(x).value)
  {
    match AsString(x)
    case None => Failure(Exception(NullReference, None))
    case Some(s) => Success(stringHash(s))
  }

  /** `GetHashCode()` made total: a null string conversion hashes to 0. */
  function GetHashCodeTotal(x: ValueProviderResult, stringHash: string -> int): (r: int)
    ensures GetHashCode(x, stringHash).Success? ==> r == GetHashCode(x, stringHash).value
    ensures AsString(x).None? ==> r == 0
  {
    match AsString(x)
    case None => 0
    case Some(s) => stringHash(s)
  }

  /** `Equals` is reflexive, symmetric and transitive. */
  lemma EqualsIsEquivalence(x: ValueProviderResult, y: ValueProviderResult, z: ValueProviderResult)
    ensures Equals(x, x)
    ensures Equals(x, y) ==> Equals(y, x)
    ensures Equals(x, y) && Equals(y, z) ==> Equals(x, z)
  {
  }

  /** Results built from the same values are equal whatever their cultures. */
  lemma EqualsIgnoresCulture(values: seq<Option<string>>, c1: Culture, c2: Culture)
    ensures Equals(FromValuesAndCulture(values, c1), FromValuesAndCulture(values, c2))
    ensures Equals(FromValues(values), FromValuesAndCulture(values, c2))
  {
  }

  /** `None` and a result over an empty array both have length 0 and a null
      string conversion, yet they are not equal. */
  lemma NoneDiffersFromEmpty()
    ensures Length(NoneResult) == 0 && Length(FromValues([])) == 0
    ensures AsString(NoneResult).None? && AsString(FromValues([])).None?
    ensures !Equals(NoneResult, FromValues([]))
    ensures Equals(FromValues([]), FromValuesAndCulture([], Culture("fr-FR")))
  {
  }

  /** Equal results have the same length, convert to the same string and so
      hash alike. */
  lemma EqualResultsAgreeOnStringAndHash(x: ValueProviderResult, y: ValueProviderResult, stringHash: string -> int)
    requires Equals(x, y)
    ensures Length(x) == Length(y)
    ensures AsString(x) == AsString(y)
    ensures GetHashCode(x, stringHash) == GetHashCode(y, stringHash)
    ensures GetHashCodeTotal(x, stringHash) == GetHashCodeTotal(y, stringHash)
  {
  }

  /** The converse fails: `["a,b"]` and `["a", "b"]` have the same string
      conversion but are not equal. */
  lemma SameStringDoesNotImplyEqual()
    ensures AsString(FromValues([Some("a,b")])) == AsString(FromValues([Some("a"), Some("b")]))
    ensures !Equals(FromValues([Some("a,b")]), FromValues([Some("a"), Some("b")]))
  {
    var two := [Some("a"), Some("b")];
    assert two[1..] == [Some("b")];
    assert Join(",", two) == "a" + "," + "b";
    assert "a" + "," + "b" == "a,b";
  }

  /** As written, hashing `None`, a result over an empty array, or a result
      whose single value is null throws `NullReferenceException`. */
  lemma HashOfNoneFails(stringHash: string -> int)
    ensures GetHashCode(NoneResult, stringHash).Failure?
    ensures GetHashCode(FromValues([]), stringHash).Failure?
    ensures GetHashCode(FromValues([None]), stringHash).Failure?
    ensures GetHashCodeTotal(NoneResult, stringHash) == 0
  {
  }
}

=== FILE: wrappers.dfy ===
/** Optional values (a nullable reference) and value-or-exception results. */
module Wrappers {

  /** A value that may be absent; `None` stands for a .NET null reference. */
  datatype Option<+T> = None | Some(value: T) {

    /** The wrapped value, or `default` when absent (the `??` operator). */
    function GetOr(default: T): T {
      match this
      case Some(v) => v
      case None => default
    }
  }

  /** Either a returned value or a thrown exception. */
  datatype Result<+T, +E> = Success(value: T) | Failure(error: E)
}
